=== FILE: README.md ===
# Portfolio snapshot crons: a Dafny model

This project models the snapshot-building core of the HK portfolio tracker's
three server-side scripts:

- `update-us.py`: the US cron. For each user it refreshes every position's price from a
  Yahoo chart response. It rewrites each ticker into its clean US form, caches
  the quotes, and builds a ten-field daily snapshot. That snapshot adds
  `closingPrices`, a per-position `positionsAtClose` audit array and a
  `dailyPnL` computed against the latest earlier snapshot, including the
  same-day cohort split. The cron then writes the snapshot into the list and
  drops the same-day cohort fields from the positions.
- `update.py`: the HK cron. It refreshes prices and caches them under the
  "b.HK" → ".HK" key, then writes a seven-field snapshot.
- `patch-feb27.py`: a one-off repair. It writes a table of corrected prices
  into the cache and the positions. It then recomputes the 2026-02-27 snapshot
  with a two-case daily P&L keyed by the ".HK" ticker and writes it into the
  list.

Documents, positions, trades, transactions, cache entries and snapshots are
immutable datatypes. Every field the scripts read with a default is an
`Option`. Each script becomes a pure function from the document it loads to
the document it saves. The Yahoo responses, the run date and the clock reads
are parameters. Each fetch reads the clock itself, so every fetch gets its own
ISO timestamp and, in the US script, its own UTC start of today (epoch
seconds). The patch reads the clock once.

The modules follow the scripts' structure:

- `Common`: `Option`, dates, and sums over sequences.
- `Records`: the document.
- `Tickers`: `strip`/`replace`/`upper` and the two ticker spellings.
- `Quotes`: previous-close selection and the fetch result.
- `Refresh`: price refresh and the cache.
- `Aggregates`: the totals, `closingPrices` and `positionsAtClose`.
- `Summary`: the snapshot records.
- `Daily`: yesterday's snapshot and daily P&L.
- `SnapshotList`: the upsert.
- `Cleanup`: dropping the cohort fields.
- `UsUpdate`, `HkUpdate`, `Patch`: the three scripts.

The browser application that shares these documents follows different
rules in two places. The model follows the scripts:

- **Same-date snapshots.** The browser application merges a same-date
  snapshot field by field and never overwrites a recorded `dailyPnL`. The
  scripts replace the same-date snapshot wholesale, and the model does the
  same.
  `HkUpdate.RunHkReplacesWholesale` shows the stored `dailyPnL`,
  `closingPrices` and `positionsAtClose` being dropped.
- **Fees.** The browser application subtracts the fees charged at close from
  realized P&L. The scripts leave fees out, and so does the model (`Aggregates.RealizedPnLIgnoresFees`).

## Model

| member | source | states |
|---|---|---|
| Tickers.Strip | update-us.py:119 | `strip()` returns a slice of the ticker with only whitespace (Python's `isspace` set) cut from either end, and the result neither starts nor ends with whitespace |
| Tickers.Upper | update-us.py:119 | `upper()` keeps the length, turns each `a`–`z` into its capital (code point − 32) and keeps every other character, so no lower-case ASCII letter is left |
| Tickers.ReplaceAll | update-us.py:119 | `replace` leaves a string without the pattern unchanged; it never lengthens it when the replacement is no longer than the pattern, and strictly shortens it when the pattern occurs and the replacement is shorter |
| Tickers.ReplaceAtFirst | update-us.py:119 | the text before the first occurrence of the pattern is kept, that occurrence becomes the replacement, and the rest is rewritten on its own |
| Tickers.OccursSomewhere | update-us.py:119 | the left-to-right scan finds the pattern exactly when it occurs at some index |
| Tickers.UsTickerShape | update-us.py:119 | the US clean-up never lengthens a ticker and leaves no lower-case ASCII letter |
| Tickers.UsTickerFixesClean | update-us.py:119-120 | a trimmed ticker with no ".HK" and no lower-case letter is written back unchanged |
| Tickers.UsTickerDropsSuffix | update-us.py:119-120 | a trimmed upper-case code with no "." followed by ".HK" is written back as the bare code |
| Tickers.UsTickerSecondRunDiffers | update-us.py:119-120 | the in-place clean-up is not idempotent: "A.hk" becomes "A.HK" on one run and "A" on the next |
| Tickers.HkTickerRewritesSuffix | update.py:122 | a code without "b" followed by "b.HK" is keyed as the code followed by ".HK" |
| Tickers.HkTickerKeepsPlain | update.py:122 | a ticker with no "b" is its own cache key |
| Quotes.ChangePercent | update-us.py:87 | the percentage change is 0 without a previous close; otherwise it times the previous close is 100 times the move; it is 0 exactly when there is no move or no previous close |
| Quotes.MakeQuote | update-us.py:82-90 | the quote carries the price, previous close, currency and timestamp, with change = price − previous close and the percentage change above |
| Quotes.MetaFallback | update-us.py:79 | `previousClose or chartPreviousClose or price`: the first truthy meta field in that order, else the price |
| Quotes.FindPriorBar | update-us.py:74-77 | the backward scan finds the latest bar with a close and a timestamp before today's UTC start, or reports that none exists |
| Quotes.PreviousCloseUs | update-us.py:68-79 | the US previous close is the close of the latest such bar when that close is non-zero; when there is none or it is 0, the meta fallback |
| Quotes.FindClose | update.py:71-74 | the backward scan finds the last non-null close before the final bar, or reports that none exists |
| Quotes.PreviousCloseHk | update.py:67-76 | with two or more closes, the last non-null close before the final one, or the price if all are null; with fewer, the meta fallback |
| Quotes.FetchUs | update-us.py:57-90 | a failed request, an empty result and a missing price give the three errors; otherwise success, with the US previous close, the change fields, currency defaulting to "USD" and the timestamp this fetch read |
| Quotes.FetchHk | update.py:56-87 | the same error cases; on success the HK previous close, the change fields, currency defaulting to "HKD" and the timestamp this fetch read |
| Quotes.UsQuoteWithoutHistoryIsFlat | update-us.py:73-87 | with no usable bar before today and no truthy meta close, the quote's previous close is its price and both change fields are 0 |
| Refresh.StoreResults | update-us.py:118-123 | the cache gains exactly the keys with a successful fetch; a key with none keeps its old entry; a key with one holds the last successful result |
| Refresh.RefreshPositions | update-us.py:118-124 | every position carries its written-back ticker; a successful fetch sets `currentPrice` to the fetched price; a failed one keeps the old price; nothing else changes |
| Aggregates.Dividends | update-us.py:130 | the dividend list holds only dividends, and each dividend transaction exactly as many times as it is recorded |
| Aggregates.DividendsMembers | update-us.py:130 | a transaction is listed exactly when it is recorded and is of type "dividend" |
| Aggregates.TotalDividendsSumsDividends | update-us.py:130 | the dividend total is the sum of the amounts of the dividend transactions alone |
| Aggregates.RealizedPnLAppend | update-us.py:129 | realized P&L is additive over the closed-trade list |
| Aggregates.RealizedPnLIgnoresFees | update-us.py:129 | realized P&L does not depend on the fees recorded on closed trades |
| Aggregates.CloseRecord | update-us.py:138-149 | an audit record carries the ticker, the name (empty when absent), quantity and entry date; marketValue = closingPrice·qty, pnl = (closingPrice − entryPrice)·qty, pnlPercent 0 when the entry price is 0 or absent, and otherwise pnlPercent·entryPrice = 100·(closingPrice − entryPrice) |
| Aggregates.PositionsAtClose | update-us.py:134-149 | one audit record per position, in position order |
| Aggregates.PositionsAtCloseTotals | update-us.py:127-149 | the audit market values sum to the portfolio value and the audit P&L to portfolio value − capital engaged |
| Aggregates.ClosingPrices | update-us.py:133-139 | the map has a key for exactly the positions' tickers, and with a repeated ticker the later position's price wins |
| Summary.TotalsSnapshot | update.py:135-143 | the HK snapshot records capital engaged, portfolio value, unrealized = value − capital, realized P&L, dividends and the position count, and has no closing prices, daily P&L or audit array |
| Summary.FullSnapshot | update-us.py:187-198 | the ten-field snapshot records the same totals, closing prices for exactly the given keys (the last position wins), the audit array and the daily P&L |
| Summary.AuditMatchesTotals | update-us.py:187-197 | in a snapshot holding both totals and audit array, the audit market values add up to `portfolioValue` and the audit P&L to `unrealizedPnL` |
| Daily.LatestBefore | update-us.py:152-156 | the scan picks the greatest date before today, the first in list order among equals, and reports none when no snapshot is earlier |
| Daily.Yesterday | update-us.py:152-156 | yesterday's snapshot is the one with the greatest date before today, or none when there is no earlier snapshot |
| Daily.YesterdayUnique | update-us.py:152-156 | at most one snapshot is yesterday's |
| Daily.DailyPnLUs | update-us.py:152-185 | with no earlier snapshot the daily P&L is the unrealized P&L; otherwise it is the three-case per-position contributions against yesterday's closes plus realized P&L − yesterday's realized P&L |
| Daily.DailyPnLUsFlat | update-us.py:158-182 | when every price equals yesterday's close, nothing was opened or added today and realized P&L is unchanged, the daily P&L is 0 |
| Daily.ContributionsUsUnmoved | update-us.py:158-179 | positions priced at yesterday's close with no same-day activity contribute 0 |
| Daily.ContributionsUsMarkToMarket | update-us.py:158-179 | with no same-day activity and every ticker in yesterday's closes, the contributions are today's value of the holdings minus their value at yesterday's closes |
| Daily.IntradaySplit | update-us.py:165-174 | for shares added today, the contribution is today's value of all shares minus old shares at yesterday's close and new shares at their purchase price |
| Daily.DailyPnLPatch | patch-feb27.py:136-156 | with no earlier snapshot the patch daily P&L is 0; otherwise the two-case contributions, looked up under the ".HK" key, plus the realized change |
| Daily.PatchAgreesWithUs | patch-feb27.py:143-154 | with no same-day additions and tickers the HK rewrite leaves alone, the patch contributions equal the US ones |
| Daily.ContributionsPatchUnmoved | patch-feb27.py:143-154 | positions priced at the prior close under their ".HK" key, none opened that day, contribute 0 |
| Daily.DailyPnLPatchFlat | patch-feb27.py:136-156 | on a flat day (prices at the prior close, nothing opened, realized unchanged) the patch daily P&L is 0 |
| Daily.DailyPnLPatchSameHistory | patch-feb27.py:136-141 | changing snapshots dated on or after the target date, without moving any earlier-dated snapshot from its index, does not change the patch daily P&L |
| SnapshotList.FindDate | update-us.py:200 | the search finds the first snapshot with the date, or reports that there is none |
| SnapshotList.InsertByDate | update-us.py:205-206 | inserting into a date-sorted list keeps it sorted and adds one element |
| SnapshotList.SortByDate | update-us.py:206 | sorting by date gives a date-sorted list of the same length |
| SnapshotList.SortPermutes | update-us.py:206 | sorting only reorders: the same snapshots, each as often |
| SnapshotList.SortKeepsSorted | update-us.py:206 | sorting a date-sorted list leaves it unchanged |
| SnapshotList.Upsert | update-us.py:200-208 | an existing date replaces the first snapshot with that date in place, all others unchanged; a new date gives a sorted list with exactly the old snapshots plus the new one |
| SnapshotList.UpsertContents | update-us.py:200-208 | the written snapshot is in the list, every snapshot of another date is kept, and the list grows only when the date is new |
| SnapshotList.UpsertKeepsDateUnique | update-us.py:200-208 | with at most one snapshot for the date before, there is exactly one after |
| SnapshotList.UpsertIntoSorted | update-us.py:204-206 | on a date-sorted list, a new date is inserted between the earlier and the later snapshots and nothing else moves |
| SnapshotList.UpsertWrites | update-us.py:200-208 | the written list holds the snapshot; an existing date is replaced in place at its first snapshot; a new date gives a date-sorted list holding exactly the old snapshots and the new one; snapshots of other dates are kept; the length grows only for a new date; a date held at most once is held exactly once |
| SnapshotList.UpsertIdempotent | update-us.py:200-208 | writing the same snapshot twice is writing it once |
| SnapshotList.UpsertKeepsEarlier | patch-feb27.py:171-180 | writing a snapshot into a list that is date-sorted or already holds its date leaves every earlier-dated snapshot at its index |
| Cleanup.CleanupPositions | update-us.py:212-215 | no position keeps a cohort field, every other field is unchanged, and the count and order are kept |
| Cleanup.CleanupIdempotent | update-us.py:212-215 | cleaning twice is cleaning once |
| Cleanup.CleanupKeepsClean | update-us.py:212-215 | positions without cohort fields are left exactly as they are |
| Cleanup.CleanupKeepsValuation | update-us.py:212-215 | the cleanup changes neither capital engaged, portfolio value, the audit array nor the mark prices |
| Cleanup.CleanupKeepsSnapshot | update-us.py:187-215 | dropping the cohort fields after the snapshot is taken changes nothing the snapshot records: the snapshot of the cleaned positions is the snapshot of the positions before the cleanup |
| UsUpdate.UpdatePortfolio | update-us.py:104-112 | a user without positions is skipped; otherwise the closed trades and transactions are saved untouched |
| UsUpdate.UpdatePortfolioSaves | update-us.py:116-215 | the saved positions carry the cleaned ticker and the fetched price on success, with no cohort fields and nothing else changed; the cache holds the successful fetches under the cleaned keys; the saved snapshot list holds the day's snapshot, which records the saved positions and the daily P&L of the refreshed ones, written in place or added and date-sorted as `SnapshotList.UpsertWrites` states |
| HkUpdate.RunHk | update.py:105-113 | with no positions nothing is computed or written; otherwise the closed trades and transactions are saved untouched |
| HkUpdate.RunHkSaves | update.py:119-153 | positions only take the fetched price on success and keep their tickers; the cache holds the successful fetches under the ".HK" keys; a seven-field snapshot for the day recording the saved positions is written into the list, in place or added and date-sorted as `SnapshotList.UpsertWrites` states |
| HkUpdate.RunHkReplacesWholesale | update.py:145-153 | an existing snapshot for the day is replaced in place by one without closing prices, daily P&L or audit array; no other snapshot changes |
| Patch.PatchCache | patch-feb27.py:76-104 | a table ticker already cached gets the corrected price, previous close, change fields and timestamp and keeps its success flag and currency; a new one gets success true and currency "HKD"; every other entry is untouched |
| Patch.PatchCacheIdempotent | patch-feb27.py:76-104 | applying the correction table twice is applying it once |
| Patch.PatchPositions | patch-feb27.py:106-110 | only positions whose ".HK" key is in the table get the corrected `currentPrice`; nothing else about any position changes |
| Patch.PatchPositionsIdempotent | patch-feb27.py:106-110 | correcting the positions twice is correcting them once |
| Patch.RunPatchRepairsSuffixed | patch-feb27.py:76-110 | with the script's correction table, a position held under the "b.HK" spelling of a listed ticker gets the table price, and the cache entry under the ".HK" spelling holds that price |
| Patch.PatchSnapshot | patch-feb27.py:112-169 | the recomputed snapshot is dated 2026-02-27 and records the totals, closing prices keyed by the ".HK" ticker, the audit array under the raw ticker and the two-case daily P&L |
| Patch.RunPatch | patch-feb27.py:66-190 | the patch saves the corrected cache and positions, leaves the closed trades and transactions alone, and does not skip an empty portfolio |
| Patch.RunPatchSaves | patch-feb27.py:112-180 | the saved list holds the target date's recomputed snapshot, written in place over the first snapshot of that date, or, when there is none, added to a list that is then date-sorted and holds exactly the old snapshots and the new one |
| Patch.RunPatchIdempotent | patch-feb27.py:76-180 | re-running the patch with the same clock read saves exactly what the first run saved |

## Left out

- Firestore: initialisation, `doc_ref.get`/`update`, a missing document, the
  per-user document loop and the server `lastUpdated` timestamp. The document
  is an input value and the saved fields are the output.
- The Yahoo HTTP request: the URL, the `User-Agent`, the 15-second timeout and
  JSON decoding. Each position's response is an input, one per position in
  order. A result without `meta` is the meta with no fields, which fails
  with "No price". Responses on which Python raises are not modelled. An
  empty `result` list or an empty `indicators.quote` list raises in both
  scripts. In the US script a null `timestamp` element raises when the
  backward scan compares it: at a bar with a non-null close, at or after the
  bar where the scan stops. None of these can be written as a `Response`.
  Null timestamps the scan never compares (at a null close, or before the
  bar where it stops) do not raise, but `Chart` holds timestamps as
  integers, so those responses are outside `Response` as well. The one
  raising shape a `Response` can express, a `timestamp` list longer than
  the close list, is excluded by `Quotes.FetchableUs` as the US fetch's
  precondition.
- `datetime.now`, the timezone constants and the fixed UTC−5 offset that
  ignores daylight saving time. The run date and each fetch's clock reads
  (today's UTC start and the ISO timestamp) are parameters. Dates are
  yyyymmdd integers, which order like the ISO date strings.
- `round(x, 2)` and `round(x, 4)` on every stored total and change field.
  Arithmetic is on exact reals, so the contracts state the unrounded values.
- Floating-point behaviour in general: prices, quantities and the patch's
  decimal constants are exact reals.
- `print` logging and the `return True`/`False` of the US per-user function.
  The `Option` result stands for the latter.
- `upper()` beyond ASCII: `Tickers.Upper` maps only `a`–`z`, which covers
  ticker symbols.
- Fields stored as JSON `null` are treated as absent. `d.get(k, default)` of a
  stored null would give `None` rather than the default.
- SnapshotList.SortByDate: the stability of Python's sort is implemented but
  not stated as a contract, only sortedness and the permutation.
- Patch.RunPatchIdempotent: stated for a date-sorted snapshot list or one that
  already holds the target date. The remaining case relies on sort stability,
  which is not proved. Both runs use the same `now`; a real re-run reads the
  clock again and so rewrites `lastUpdated` on every table entry of the price
  cache.
- UsUpdate.UpdatePortfolioSaves: states that the saved snapshot records the
  daily P&L computed from the refreshed positions. It does not restate the
  per-position rule, which `Daily.DailyPnLUs` states.
- The fee schedule, position add/merge, partial-close cost-basis adjustment,
  the market calendar, history backfill and time-weighted returns belong to
  the browser application, which is not part of this model.

=== FILE: aggregates.dfy ===
/** The snapshot aggregates shared by the three scripts: capital engaged,
    portfolio value, realized P&L, dividends, the `closingPrices` map and the
    `positionsAtClose` audit array. */
module Aggregates {
  import opened Common
  import opened Records

  /** Cost basis of one position: quantity times entry price (0 if absent). */
  function PositionCost(p: Position): real {
    p.quantity * EntryPrice(p)
  }

  /** Market value of one position at its mark price. */
  function PositionValue(p: Position): real {
    p.quantity * MarkPrice(p)
  }

  function CapitalEngaged(ps: seq<Position>): real {
    Sum(ps, PositionCost)
  }

  function PortfolioValue(ps: seq<Position>): real {
    Sum(ps, PositionValue)
  }

  /** P&L of one closed trade, missing fields read as 0; fees do not enter. */
  function TradePnL(t: ClosedTrade): real {
    (t.exitPrice.GetOr(0.0) - t.entryPrice.GetOr(0.0)) * t.quantity.GetOr(0.0)
  }

  function RealizedPnL(ts: seq<ClosedTrade>): real {
    Sum(ts, TradePnL)
  }

  predicate IsDividend(t: Transaction) {
    t.kind == Some("dividend")
  }

  /** A transaction's contribution to the dividend total. */
  function DividendAmount(t: Transaction): real {
    if IsDividend(t) then t.amount.GetOr(0.0) else 0.0
  }

  function TotalDividends(txs: seq<Transaction>): real {
    Sum(txs, DividendAmount)
  }

  function Amount(t: Transaction): real {
    t.amount.GetOr(0.0)
  }

  /** The dividend transactions, in order, each as often as it is recorded. */
  function Dividends(txs: seq<Transaction>): (r: seq<Transaction>)
    ensures forall i :: 0 <= i < |r| ==> IsDividend(r[i])
    ensures forall t :: multiset(r)[t] == if IsDividend(t) then multiset(txs)[t] else 0
    decreases |txs|
  {
    if |txs| == 0 then []
    else
      var n := |txs| - 1;
      var rest := Dividends(txs[..n]);
      assert txs == txs[..n] + [txs[n]];
      if IsDividend(txs[n]) then rest + [txs[n]] else rest
  }

  /** Membership view of `Dividends`: a transaction is listed exactly when it
      is recorded and is a dividend. */
  lemma DividendsMembers(txs: seq<Transaction>, t: Transaction)
    ensures t in Dividends(txs) <==> t in txs && IsDividend(t)
  {
    assert t in Dividends(txs) <==> multiset(Dividends(txs))[t] > 0;
    assert t in txs <==> multiset(txs)[t] > 0;
  }

  /** The dividend total is the plain sum of the dividend transactions'
      amounts: every other kind of transaction contributes nothing. */
  lemma {:induction false} TotalDividendsSumsDividends(txs: seq<Transaction>)
    ensures TotalDividends(txs) == Sum(Dividends(txs), Amount)
    decreases |txs|
  {
    if |txs| > 0 {
      var n, front := |txs| - 1, txs[..|txs| - 1];
      TotalDividendsSumsDividends(front);
      assert TotalDividends(txs) == TotalDividends(front) + DividendAmount(txs[n]);
      if IsDividend(txs[n]) {
        assert Dividends(txs) == Dividends(front) + [txs[n]];
        SumAppend(Dividends(front), [txs[n]], Amount);
      } else {
        assert Dividends(txs) == Dividends(front);
      }
    }
  }

  /** Realized P&L is additive over the trade log, so closing more trades adds
      exactly their P&L. */
  lemma RealizedPnLAppend(earlier: seq<ClosedTrade>, later: seq<ClosedTrade>)
    ensures RealizedPnL(earlier + later) == RealizedPnL(earlier) + RealizedPnL(later)
  {
    SumAppend(earlier, later, TradePnL);
  }

  /** Realized P&L does not depend on the fees recorded on the trades. */
  lemma RealizedPnLIgnoresFees(a: seq<ClosedTrade>, b: seq<ClosedTrade>)
    requires |a| == |b|
    requires forall i :: 0 <= i < |a| ==> a[i].(fees := b[i].fees) == b[i]
    ensures RealizedPnL(a) == RealizedPnL(b)
  {
    forall i | 0 <= i < |a| ensures TradePnL(a[i]) == TradePnL(b[i]) {
      assert a[i].(fees := b[i].fees) == b[i];
    }
    SumCorresponding(a, TradePnL, b, TradePnL);
  }

  /** The audit record of one position at close. */
  function CloseRecord(p: Position): (r: PositionClose)
    ensures r.ticker == p.ticker && r.name == p.name.GetOr("")
    ensures r.quantity == p.quantity && r.entryDate == p.entryDate
    ensures r.closingPrice == MarkPrice(p) && r.entryPrice == EntryPrice(p)
    ensures r.marketValue == r.closingPrice * r.quantity
    ensures r.pnl == (r.closingPrice - r.entryPrice) * r.quantity
    ensures r.entryPrice == 0.0 ==> r.pnlPercent == 0.0
    ensures r.entryPrice != 0.0 ==> r.pnlPercent * r.entryPrice == (r.closingPrice - r.entryPrice) * 100.0
  {
    var cur := MarkPrice(p);
    var entry := EntryPrice(p);
    PositionClose(
      p.ticker, p.name.GetOr(""), p.quantity, entry, p.entryDate, cur,
      cur * p.quantity, (cur - entry) * p.quantity,
      if entry != 0.0 then (cur - entry) / entry * 100.0 else 0.0)
  }

  /** `positionsAtClose`: one audit record per position, in position order. */
  function PositionsAtClose(ps: seq<Position>): (r: seq<PositionClose>)
    ensures |r| == |ps|
    ensures forall i :: 0 <= i < |ps| ==> r[i] == CloseRecord(ps[i])
  {
    seq(|ps|, i requires 0 <= i < |ps| => CloseRecord(ps[i]))
  }

  function MarketValueOf(c: PositionClose): real {
    c.marketValue
  }

  function PnLOf(c: PositionClose): real {
    c.pnl
  }

  /** The audit array adds up to the snapshot totals: market values to the
      portfolio value, per-position P&L to the unrealized P&L. */
  lemma PositionsAtCloseTotals(ps: seq<Position>)
    ensures Sum(PositionsAtClose(ps), MarketValueOf) == PortfolioValue(ps)
    ensures Sum(PositionsAtClose(ps), PnLOf) == PortfolioValue(ps) - CapitalEngaged(ps)
  {
    var r := PositionsAtClose(ps);
    SumCorresponding(r, MarketValueOf, ps, PositionValue);
    SumCorresponding(r, PnLOf, ps, p => PositionValue(p) - PositionCost(p));
    SumDifference(ps, PositionValue, PositionCost, p => PositionValue(p) - PositionCost(p));
  }

  /** The mark price of every position, in order. */
  function MarkPrices(ps: seq<Position>): (r: seq<real>)
    ensures |r| == |ps| && forall i :: 0 <= i < |ps| ==> r[i] == MarkPrice(ps[i])
  {
    seq(|ps|, i requires 0 <= i < |ps| => MarkPrice(ps[i]))
  }

  /** Entry `i` is the last one under its key. */
  predicate LastWithKey(keys: seq<Ticker>, i: int) {
    0 <= i < |keys| && forall j :: i < j < |keys| ==> keys[j] != keys[i]
  }

  /** `closingPrices`: each position's price under its key, a later position
      overwriting an earlier one with the same key. */
  function ClosingPrices(keys: seq<Ticker>, prices: seq<real>): (r: map<Ticker, real>)
    requires |keys| == |prices|
    ensures forall k :: k in r <==> k in keys
    ensures forall i :: LastWithKey(keys, i) ==> keys[i] in r && r[keys[i]] == prices[i]
    decreases |keys|
  {
    if |keys| == 0 then map[]
    else
      var n := |keys| - 1;
      var rest := ClosingPrices(keys[..n], prices[..n]);
      ClosingPricesStep(keys, prices, rest);
      rest[keys[n] := prices[n]]
  }

  /** One step of `ClosingPrices`: storing the last entry on top of the map
      built from the others. */
  lemma ClosingPricesStep(keys: seq<Ticker>, prices: seq<real>, rest: map<Ticker, real>)
    requires |keys| == |prices| > 0
    requires forall k :: k in rest <==> k in keys[..|keys| - 1]
    requires forall i :: LastWithKey(keys[..|keys| - 1], i) ==> keys[i] in rest && rest[keys[i]] == prices[i]
    ensures var r := rest[keys[|keys| - 1] := prices[|keys| - 1]];
      && (forall k :: k in r <==> k in keys)
      && (forall i :: LastWithKey(keys, i) ==> keys[i] in r && r[keys[i]] == prices[i])
  {
    ClosingKeysStep(keys, prices, rest);
    ClosingValuesStep(keys, prices, rest);
  }

  lemma ClosingKeysStep(keys: seq<Ticker>, prices: seq<real>, rest: map<Ticker, real>)
    requires |keys| == |prices| > 0
    requires forall k :: k in rest <==> k in keys[..|keys| - 1]
    ensures forall k :: k in rest[keys[|keys| - 1] := prices[|keys| - 1]] <==> k in keys
  {
    var n := |keys| - 1;
    assert keys == keys[..n] + [keys[n]];
  }

  lemma ClosingValuesStep(keys: seq<Ticker>, prices: seq<real>, rest: map<Ticker, real>)
    requires |keys| == |prices| > 0
    requires forall i :: LastWithKey(keys[..|keys| - 1], i) ==> keys[i] in rest && rest[keys[i]] == prices[i]
    ensures var r := rest[keys[|keys| - 1] := prices[|keys| - 1]];
      forall i :: LastWithKey(keys, i) ==> keys[i] in r && r[keys[i]] == prices[i]
  {
    var n := |keys| - 1;
    var r := rest[keys[n] := prices[n]];
    forall i | LastWithKey(keys, i) ensures keys[i] in r && r[keys[i]] == prices[i] {
      if i < n {
        assert LastWithKey(keys[..n], i);
        assert keys[i] != keys[n];
      }
    }
  }
}

=== FILE: cleanup.dfy ===
/** After the US snapshot is built, the same-day cohort fields are dropped
    from every position. */
module Cleanup {
  import opened Common
  import opened Records
  import opened Aggregates
  import opened Summary

  predicate NoCohortFields(p: Position) {
    && p.addedTodayDate.None?
    && p.addedTodayQty.None?
    && p.addedTodayPrice.None?
    && p.qtyBeforeToday.None?
  }

  /** `p` and `q` agree on every field other than the cohort fields. */
  predicate SameHolding(p: Position, q: Position) {
    && p.ticker == q.ticker
    && p.name == q.name
    && p.quantity == q.quantity
    && p.entryPrice == q.entryPrice
    && p.currentPrice == q.currentPrice
    && p.entryDate == q.entryDate
  }

  function ClearCohort(p: Position): Position {
    p.(addedTodayDate := None, addedTodayQty := None, addedTodayPrice := None, qtyBeforeToday := None)
  }

  /** Every position without its cohort fields, and otherwise unchanged. */
  function CleanupPositions(ps: seq<Position>): (r: seq<Position>)
    ensures |r| == |ps|
    ensures forall i :: 0 <= i < |ps| ==> NoCohortFields(r[i]) && SameHolding(r[i], ps[i])
  {
    seq(|ps|, i requires 0 <= i < |ps| => ClearCohort(ps[i]))
  }

  /** Cleaning twice is cleaning once. */
  lemma CleanupIdempotent(ps: seq<Position>)
    ensures CleanupPositions(CleanupPositions(ps)) == CleanupPositions(ps)
  {
  }

  /** Positions that carry no cohort fields are left exactly as they are. */
  lemma CleanupKeepsClean(ps: seq<Position>)
    requires forall i :: 0 <= i < |ps| ==> NoCohortFields(ps[i])
    ensures CleanupPositions(ps) == ps
  {
  }

  /** The cleanup does not change anything a snapshot records about the
      positions, so the saved snapshot still agrees with the saved positions. */
  lemma CleanupKeepsValuation(ps: seq<Position>)
    ensures CapitalEngaged(CleanupPositions(ps)) == CapitalEngaged(ps)
    ensures PortfolioValue(CleanupPositions(ps)) == PortfolioValue(ps)
    ensures PositionsAtClose(CleanupPositions(ps)) == PositionsAtClose(ps)
    ensures MarkPrices(CleanupPositions(ps)) == MarkPrices(ps)
  {
    CleanupKeepsTotals(ps);
    CleanupKeepsAudit(ps);
  }

  lemma CleanupKeepsTotals(ps: seq<Position>)
    ensures CapitalEngaged(CleanupPositions(ps)) == CapitalEngaged(ps)
    ensures PortfolioValue(CleanupPositions(ps)) == PortfolioValue(ps)
  {
    var r := CleanupPositions(ps);
    assert CapitalEngaged(r) == CapitalEngaged(ps) by {
      SumCorresponding(r, PositionCost, ps, PositionCost);
    }
    assert PortfolioValue(r) == PortfolioValue(ps) by {
      SumCorresponding(r, PositionValue, ps, PositionValue);
    }
  }

  lemma CleanupKeepsAudit(ps: seq<Position>)
    ensures PositionsAtClose(CleanupPositions(ps)) == PositionsAtClose(ps)
    ensures MarkPrices(CleanupPositions(ps)) == MarkPrices(ps)
  {
    var r := CleanupPositions(ps);
    assert PositionsAtClose(r) == PositionsAtClose(ps) by {
      assert forall i :: 0 <= i < |ps| ==> CloseRecord(r[i]) == CloseRecord(ps[i]);
    }
    assert MarkPrices(r) == MarkPrices(ps) by {
      assert forall i :: 0 <= i < |ps| ==> MarkPrice(r[i]) == MarkPrice(ps[i]);
    }
  }

  /** The cleanup does not change the snapshot: the ten-field snapshot built
      from the cleaned positions is the one built from the positions before
      the cleanup. */
  lemma CleanupKeepsSnapshot(today: Date, ps: seq<Position>, trades: seq<ClosedTrade>,
                             txs: seq<Transaction>, daily: real)
    ensures var r := CleanupPositions(ps);
            FullSnapshot(today, r, TickerList(r), trades, txs, daily)
              == FullSnapshot(today, ps, TickerList(ps), trades, txs, daily)
  {
    var r := CleanupPositions(ps);
    CleanupKeepsTotals(ps);
    CleanupKeepsAudit(ps);
    assert TotalsSnapshot(today, r, trades, txs) == TotalsSnapshot(today, ps, trades, txs);
    assert TickerList(r) == TickerList(ps);
  }
}

=== FILE: common.dfy ===
/** Shared vocabulary of the portfolio documents: optional fields, dates,
    tickers, and sums of reals over sequences. */
module Common {

  /** A document field that may be absent (a dictionary key that is missing). */
  datatype Option<+T> = None | Some(value: T) {

    /** The value, or `default` when the field is absent (`d.get(k, default)`). */
    function GetOr(default: T): T {
      match this
      case Some(v) => v
      case None => default
    }
  }

  /** A calendar date as the number yyyymmdd. For four-digit years its numeric
      order is the lexicographic order of the ISO "YYYY-MM-DD" strings that the
      documents store and the scripts compare with `<` and `==`. */
  type Date = int

  type Ticker = string

  /** Truthiness of an optional number: present and non-zero. */
  predicate Truthy(o: Option<real>) {
    o.Some? && o.value != 0.0
  }

  /** The expression `a or b` for an optional number `a`. */
  function Or(a: Option<real>, b: real): real {
    if Truthy(a) then a.value else b
  }

  /** The value stored under `k`, or 0 when `k` is missing. */
  function LookupOr0(m: map<Ticker, real>, k: Ticker): real {
    if k in m then m[k] else 0.0
  }

  /** Sum of `f` over the elements of `s`, in order. */
  function Sum<T>(s: seq<T>, f: T -> real): real
    decreases |s|
  {
    if |s| == 0 then 0.0 else Sum(s[..|s| - 1], f) + f(s[|s| - 1])
  }

  lemma {:induction false} SumAppend<T>(a: seq<T>, b: seq<T>, f: T -> real)
    ensures Sum(a + b, f) == Sum(a, f) + Sum(b, f)
    decreases |b|
  {
    if |b| == 0 {
      assert a + b == a;
    } else {
      assert (a + b)[..|a + b| - 1] == a + b[..|b| - 1];
      SumAppend(a, b[..|b| - 1], f);
    }
  }

  /** Two sums agree when their terms agree element by element, even over
      sequences of different element types. */
  lemma {:induction false} SumCorresponding<A, B>(s: seq<A>, f: A -> real, t: seq<B>, g: B -> real)
    requires |s| == |t|
    requires forall i :: 0 <= i < |s| ==> f(s[i]) == g(t[i])
    ensures Sum(s, f) == Sum(t, g)
    decreases |s|
  {
    if |s| > 0 {
      SumCorresponding(s[..|s| - 1], f, t[..|t| - 1], g);
    }
  }

  /** The sum of a difference is the difference of the sums. */
  lemma {:induction false} SumDifference<T>(s: seq<T>, f: T -> real, g: T -> real, h: T -> real)
    requires forall i :: 0 <= i < |s| ==> h(s[i]) == f(s[i]) - g(s[i])
    ensures Sum(s, h) == Sum(s, f) - Sum(s, g)
    decreases |s|
  {
    if |s| > 0 {
      SumDifference(s[..|s| - 1], f, g, h);
    }
  }
}

=== FILE: daily.dfy ===
/** Daily P&L against the latest earlier snapshot: the US cron's three-case
    rule with the same-day cohort split, and the patch script's two-case rule
    keyed by the rewritten HK ticker. */
module Daily {
  import opened Common
  import opened Records
  import opened Aggregates
  import opened Tickers

  /** Snapshot `i` is the one taken as yesterday's: the greatest date before
      `today`, and the first in list order among snapshots with that date
      (the scripts scan a stable sort in descending date order). */
  predicate IsYesterday(snaps: seq<Snapshot>, today: Date, i: int) {
    && 0 <= i < |snaps|
    && snaps[i].date < today
    && (forall j :: 0 <= j < |snaps| && snaps[j].date < today ==> snaps[j].date <= snaps[i].date)
    && (forall j :: 0 <= j < i ==> snaps[j].date != snaps[i].date)
  }

  /** Yesterday's snapshot, when there is one, is well defined. */
  lemma YesterdayUnique(snaps: seq<Snapshot>, today: Date)
    ensures forall i, j :: IsYesterday(snaps, today, i) && IsYesterday(snaps, today, j) ==> i == j
  {
  }

  /** Index of yesterday's snapshot among the first `n`. */
  function LatestBefore(snaps: seq<Snapshot>, today: Date, n: nat): (r: Option<nat>)
    requires n <= |snaps|
    ensures r.None? <==> forall j :: 0 <= j < n ==> snaps[j].date >= today
    ensures r.Some? ==> IsYesterday(snaps[..n], today, r.value)
    decreases n
  {
    if n == 0 then None
    else
      var rest := LatestBefore(snaps, today, n - 1);
      assert forall j :: 0 <= j < n - 1 ==> snaps[..n][j] == snaps[..n - 1][j];
      if snaps[n - 1].date < today && (rest.None? || snaps[rest.value].date < snaps[n - 1].date)
      then Some(n - 1)
      else rest
  }

  /** Index of yesterday's snapshot, if any snapshot is dated before `today`. */
  function Yesterday(snaps: seq<Snapshot>, today: Date): (r: Option<nat>)
    ensures r.None? <==> forall j :: 0 <= j < |snaps| ==> snaps[j].date >= today
    ensures r.Some? ==> IsYesterday(snaps, today, r.value)
  {
    assert snaps[..|snaps|] == snaps;
    LatestBefore(snaps, today, |snaps|)
  }

  predicate EnteredOn(p: Position, today: Date) {
    p.entryDate == Some(today)
  }

  /** Shares were added to an existing holding today: the cohort split applies. */
  predicate AddedOn(p: Position, today: Date) {
    && p.addedTodayDate == Some(today)
    && p.addedTodayQty.GetOr(0.0) > 0.0
    && p.qtyBeforeToday.GetOr(0.0) > 0.0
  }

  /** One position's share of the US daily P&L given yesterday's closes. */
  function ContributionUs(p: Position, today: Date, prior: map<Ticker, real>): real {
    var cur := MarkPrice(p);
    if EnteredOn(p, today) then
      (cur - EntryPrice(p)) * p.quantity
    else if AddedOn(p, today) then
      (if p.ticker in prior then (cur - prior[p.ticker]) * p.qtyBeforeToday.GetOr(0.0) else 0.0)
      + (cur - p.addedTodayPrice.GetOr(0.0)) * p.addedTodayQty.GetOr(0.0)
    else if p.ticker in prior then
      (cur - prior[p.ticker]) * p.quantity
    else 0.0
  }

  function ContributionsUs(ps: seq<Position>, today: Date, prior: map<Ticker, real>): real
    decreases |ps|
  {
    if |ps| == 0 then 0.0
    else ContributionsUs(ps[..|ps| - 1], today, prior) + ContributionUs(ps[|ps| - 1], today, prior)
  }

  /** The realized P&L made since yesterday's snapshot (0 if it recorded none). */
  function RealizedSince(y: Snapshot, realized: real): real {
    realized - y.realizedPnL.GetOr(0.0)
  }

  /** The US cron's daily P&L: per-position contributions against yesterday's
      closes plus the realized change; with no earlier snapshot, the
      unrealized P&L. */
  function DailyPnLUs(ps: seq<Position>, snaps: seq<Snapshot>, today: Date, realized: real): (r: real)
    ensures (forall j :: 0 <= j < |snaps| ==> snaps[j].date >= today) ==>
              r == PortfolioValue(ps) - CapitalEngaged(ps)
    ensures forall i :: IsYesterday(snaps, today, i) ==>
              r == ContributionsUs(ps, today, PriorCloses(snaps[i])) + RealizedSince(snaps[i], realized)
  {
    YesterdayUnique(snaps, today);
    match Yesterday(snaps, today)
    case None => PortfolioValue(ps) - CapitalEngaged(ps)
    case Some(i) => ContributionsUs(ps, today, PriorCloses(snaps[i])) + RealizedSince(snaps[i], realized)
  }

  /** Every holding is priced at yesterday's close and none was opened or
      added to today. */
  predicate Unmoved(ps: seq<Position>, today: Date, prior: map<Ticker, real>) {
    forall i :: 0 <= i < |ps| ==>
      && !EnteredOn(ps[i], today) && !AddedOn(ps[i], today)
      && ps[i].ticker in prior && prior[ps[i].ticker] == MarkPrice(ps[i])
  }

  lemma {:induction false} ContributionsUsUnmoved(ps: seq<Position>, today: Date, prior: map<Ticker, real>)
    requires Unmoved(ps, today, prior)
    ensures ContributionsUs(ps, today, prior) == 0.0
    decreases |ps|
  {
    if |ps| > 0 {
      ContributionsUsUnmoved(ps[..|ps| - 1], today, prior);
    }
  }

  /** A day on which nothing moved: every price equals yesterday's close, no
      holding was opened or added to, and realized P&L is unchanged. */
  lemma DailyPnLUsFlat(ps: seq<Position>, snaps: seq<Snapshot>, today: Date, realized: real, y: nat)
    requires IsYesterday(snaps, today, y)
    requires Unmoved(ps, today, PriorCloses(snaps[y]))
    requires snaps[y].realizedPnL.GetOr(0.0) == realized
    ensures DailyPnLUs(ps, snaps, today, realized) == 0.0
  {
    ContributionsUsUnmoved(ps, today, PriorCloses(snaps[y]));
  }

  /** Yesterday's value of today's holdings, at yesterday's closes. */
  function PriorValue(ps: seq<Position>, prior: map<Ticker, real>): real
    decreases |ps|
  {
    if |ps| == 0 then 0.0
    else PriorValue(ps[..|ps| - 1], prior) + ps[|ps| - 1].quantity * LookupOr0(prior, ps[|ps| - 1].ticker)
  }

  /** With no same-day activity and every ticker closed yesterday, the US
      contributions are the mark-to-market move: today's value of the
      holdings minus their value at yesterday's closes. */
  lemma {:induction false} ContributionsUsMarkToMarket(ps: seq<Position>, today: Date, prior: map<Ticker, real>)
    requires forall i :: 0 <= i < |ps| ==>
               !EnteredOn(ps[i], today) && !AddedOn(ps[i], today) && ps[i].ticker in prior
    ensures ContributionsUs(ps, today, prior) == PortfolioValue(ps) - PriorValue(ps, prior)
    decreases |ps|
  {
    if |ps| > 0 {
      ContributionsUsMarkToMarket(ps[..|ps| - 1], today, prior);
    }
  }

  /** The cohort split: for a holding of `qtyBeforeToday` old shares plus
      `addedTodayQty` shares bought today, the contribution is today's value
      of all shares minus the old shares at yesterday's close and the new
      shares at their purchase price. */
  lemma IntradaySplit(p: Position, today: Date, prior: map<Ticker, real>)
    requires !EnteredOn(p, today) && AddedOn(p, today) && p.ticker in prior
    requires p.quantity == p.qtyBeforeToday.value + p.addedTodayQty.value
    ensures ContributionUs(p, today, prior) ==
              MarkPrice(p) * p.quantity
              - (prior[p.ticker] * p.qtyBeforeToday.value + p.addedTodayPrice.GetOr(0.0) * p.addedTodayQty.value)
  {
  }

  /** One position's share of the patch script's daily P&L: only the
      entered-today and carried-over cases, looked up under the HK key. */
  function ContributionPatch(p: Position, day: Date, prior: map<Ticker, real>): real {
    var cur := MarkPrice(p);
    var key := HkTicker(p.ticker);
    if EnteredOn(p, day) then
      (cur - EntryPrice(p)) * p.quantity
    else if key in prior then
      (cur - prior[key]) * p.quantity
    else 0.0
  }

  function ContributionsPatch(ps: seq<Position>, day: Date, prior: map<Ticker, real>): real
    decreases |ps|
  {
    if |ps| == 0 then 0.0
    else ContributionsPatch(ps[..|ps| - 1], day, prior) + ContributionPatch(ps[|ps| - 1], day, prior)
  }

  /** The patch script's daily P&L: contributions plus the realized change,
      and 0 when no earlier snapshot exists. */
  function DailyPnLPatch(ps: seq<Position>, snaps: seq<Snapshot>, day: Date, realized: real): (r: real)
    ensures (forall j :: 0 <= j < |snaps| ==> snaps[j].date >= day) ==> r == 0.0
    ensures forall i :: IsYesterday(snaps, day, i) ==>
              r == ContributionsPatch(ps, day, PriorCloses(snaps[i])) + RealizedSince(snaps[i], realized)
  {
    YesterdayUnique(snaps, day);
    match Yesterday(snaps, day)
    case None => 0.0
    case Some(i) => ContributionsPatch(ps, day, PriorCloses(snaps[i])) + RealizedSince(snaps[i], realized)
  }

  /** Where no cohort split applies and the HK rewrite leaves every ticker
      alone, the patch rule and the US rule agree position by position. */
  lemma {:induction false} PatchAgreesWithUs(ps: seq<Position>, day: Date, prior: map<Ticker, real>)
    requires forall i :: 0 <= i < |ps| ==> !AddedOn(ps[i], day) && HkTicker(ps[i].ticker) == ps[i].ticker
    ensures ContributionsPatch(ps, day, prior) == ContributionsUs(ps, day, prior)
    decreases |ps|
  {
    if |ps| > 0 {
      PatchAgreesWithUs(ps[..|ps| - 1], day, prior);
    }
  }

  /** Every holding is priced at the prior close under its HK key and none
      was opened that day. */
  predicate UnmovedPatch(ps: seq<Position>, day: Date, prior: map<Ticker, real>) {
    forall i :: 0 <= i < |ps| ==>
      && !EnteredOn(ps[i], day)
      && HkTicker(ps[i].ticker) in prior && prior[HkTicker(ps[i].ticker)] == MarkPrice(ps[i])
  }

  lemma {:induction false} ContributionsPatchUnmoved(ps: seq<Position>, day: Date, prior: map<Ticker, real>)
    requires UnmovedPatch(ps, day, prior)
    ensures ContributionsPatch(ps, day, prior) == 0.0
    decreases |ps|
  {
    if |ps| > 0 {
      ContributionsPatchUnmoved(ps[..|ps| - 1], day, prior);
    }
  }

  /** The patch script's flat day: every price equals the prior close, nothing
      was opened that day, and realized P&L is unchanged. */
  lemma DailyPnLPatchFlat(ps: seq<Position>, snaps: seq<Snapshot>, day: Date, realized: real, y: nat)
    requires IsYesterday(snaps, day, y)
    requires UnmovedPatch(ps, day, PriorCloses(snaps[y]))
    requires snaps[y].realizedPnL.GetOr(0.0) == realized
    ensures DailyPnLPatch(ps, snaps, day, realized) == 0.0
  {
    ContributionsPatchUnmoved(ps, day, PriorCloses(snaps[y]));
  }

  /** Two snapshot lists that hold the same snapshots at the same indices
      wherever either is dated before `day` give the same patch daily P&L:
      snapshots dated `day` or later never enter it. */
  lemma DailyPnLPatchSameHistory(ps: seq<Position>, a: seq<Snapshot>, b: seq<Snapshot>, day: Date, realized: real)
    requires forall i :: 0 <= i < |a| && a[i].date < day ==> i < |b| && b[i] == a[i]
    requires forall i :: 0 <= i < |b| && b[i].date < day ==> i < |a| && a[i] == b[i]
    ensures DailyPnLPatch(ps, a, day, realized) == DailyPnLPatch(ps, b, day, realized)
  {
    match Yesterday(a, day)
    case None =>
      assert forall j :: 0 <= j < |b| ==> b[j].date >= day;
    case Some(i) =>
      assert IsYesterday(b, day, i) by {
        assert b[i] == a[i];
        forall j | 0 <= j < i ensures b[j].date != b[i].date {
          if b[j].date < day {
            assert a[j] == b[j];
          }
        }
      }
  }
}

=== FILE: patch.dfy ===
/** The one-off repair of the 2026-02-27 HK snapshot: a table of corrected
    prices is written into the price cache and the positions, and the
    snapshot for that date is recomputed with the two-case daily P&L and
    written into the snapshot list. The table and the timestamp `now` are
    inputs. */
module Patch {
  import opened Common
  import opened Records
  import opened Tickers
  import opened Quotes
  import opened Aggregates
  import opened Daily
  import opened Summary
  import opened SnapshotList

  /** The snapshot date the patch repairs, 2026-02-27. */
  const TargetDate: Date := 20260227

  /** One row of the correction table. */
  datatype Correction = Correction(price: real, previousClose: real)

  /** The corrections the patch applies: the prices captured by the scheduled
      run at the 2026-02-27 close, as written in the script (the decimal
      literals are read as exact reals). */
  const CorrectPrices: map<Ticker, Correction> := map[
    "3998.HK" := Correction(4.86, 4.829999923706055),
    "2643.HK" := Correction(37.52, 37.880001068115234),
    "0285.HK" := Correction(32.26, 32.29999923706055),
    "0564.HK" := Correction(23.5, 22.280000686645508),
    "1913.HK" := Correction(44.5, 43.81999969482422),
    "0434.HK" := Correction(2.94, 2.8299999237060547),
    "0178.HK" := Correction(0.62, 0.6100000143051147),
    "2175.HK" := Correction(2.81, 2.8499999046325684),
    "9690.HK" := Correction(14.39, 14.449999809265137),
    "6826.HK" := Correction(25.58, 25.280000686645508),
    "2438.HK" := Correction(0.64, 0.6399999856948853),
    "0177.HK" := Correction(10.18, 10.1899995803833),
    "3600.HK" := Correction(5.86, 5.809999942779541),
    "2510.HK" := Correction(9.51, 9.789999961853027),
    "1316.HK" := Correction(7.48, 7.619999885559082),
    "1361.HK" := Correction(5.65, 5.570000171661377),
    "1999.HK" := Correction(5.1, 5.039999961853027)
  ]

  /** The change fields of `e` follow from its price and previous close. */
  predicate ChangeFieldsOf(e: CacheEntry, c: Correction) {
    && e.price == Some(c.price)
    && e.previousClose == Some(c.previousClose)
    && e.change == Some(c.price - c.previousClose)
    && e.changePercent == Some(ChangePercent(c.price, c.previousClose))
  }

  /** The price cache after the table is applied. */
  function PatchCache(cache: map<Ticker, CacheEntry>, table: map<Ticker, Correction>, now: string)
    : (r: map<Ticker, CacheEntry>)
    ensures forall k :: k in r <==> k in cache || k in table
    ensures forall k :: k in cache && k !in table ==> r[k] == cache[k]
    ensures forall k :: k in table ==> ChangeFieldsOf(r[k], table[k]) && r[k].lastUpdated == Some(now)
    ensures forall k :: k in table && k in cache ==>
              r[k].success == cache[k].success && r[k].currency == cache[k].currency
    ensures forall k :: k in table && k !in cache ==>
              r[k].success == Some(true) && r[k].currency == Some("HKD")
  {
    map k | k in cache.Keys + table.Keys ::
      if k in table then
        var c := table[k];
        var base := if k in cache then cache[k] else CacheEntry(Some(true), None, None, None, None, Some("HKD"), None);
        base.(price := Some(c.price), previousClose := Some(c.previousClose),
              change := Some(c.price - c.previousClose),
              changePercent := Some(ChangePercent(c.price, c.previousClose)),
              lastUpdated := Some(now))
      else cache[k]
  }

  /** Applying the table twice is applying it once. */
  lemma PatchCacheIdempotent(cache: map<Ticker, CacheEntry>, table: map<Ticker, Correction>, now: string)
    ensures PatchCache(PatchCache(cache, table, now), table, now) == PatchCache(cache, table, now)
  {
    var r := PatchCache(cache, table, now);
    var r2 := PatchCache(r, table, now);
    assert r2.Keys == r.Keys;
    forall k | k in r ensures r2[k] == r[k] {
    }
  }

  /** Each position whose ".HK" key is in the table gets the corrected price;
      nothing else about any position changes. */
  function PatchPositions(ps: seq<Position>, table: map<Ticker, Correction>): (r: seq<Position>)
    ensures |r| == |ps|
    ensures forall i :: 0 <= i < |ps| && HkTicker(ps[i].ticker) in table ==>
              r[i].currentPrice == Some(table[HkTicker(ps[i].ticker)].price)
    ensures forall i :: 0 <= i < |ps| && HkTicker(ps[i].ticker) !in table ==> r[i] == ps[i]
    ensures forall i :: 0 <= i < |ps| ==> r[i].(currentPrice := ps[i].currentPrice) == ps[i]
  {
    seq(|ps|, i requires 0 <= i < |ps| =>
      var key := HkTicker(ps[i].ticker);
      if key in table then ps[i].(currentPrice := Some(table[key].price)) else ps[i])
  }

  lemma PatchPositionsIdempotent(ps: seq<Position>, table: map<Ticker, Correction>)
    ensures PatchPositions(PatchPositions(ps, table), table) == PatchPositions(ps, table)
  {
  }

  /** Every ticker in the table is spelled without a "b". */
  lemma CorrectPricesPlain(k: Ticker)
    requires k in CorrectPrices
    ensures forall j :: 0 <= j < |k| ==> k[j] != 'b'
  {
  }

  /** A position held under the "b.HK" spelling of a ticker in the table gets
      the table's price, and the cache entry for the ".HK" spelling holds the
      same price. */
  lemma RunPatchRepairsSuffixed(doc: Document, now: string, i: int, code: string)
    requires 0 <= i < |doc.positions| && doc.positions[i].ticker == code + "b.HK"
    requires code + ".HK" in CorrectPrices
    ensures var d := RunPatch(doc, CorrectPrices, now);
            var c := CorrectPrices[code + ".HK"];
            && d.positions[i].currentPrice == Some(c.price)
            && code + ".HK" in d.priceCache && d.priceCache[code + ".HK"].price == Some(c.price)
  {
    var key := code + ".HK";
    CorrectPricesPlain(key);
    assert forall j :: 0 <= j < |code| ==> code[j] == key[j];
    HkTickerRewritesSuffix(code);
  }

  /** The recomputed snapshot for the target date. */
  function PatchSnapshot(ps: seq<Position>, trades: seq<ClosedTrade>, txs: seq<Transaction>,
                         snaps: seq<Snapshot>): (s: Snapshot)
    ensures s.date == TargetDate
    ensures HasTotals(s, ps, trades, txs) && HasCloses(s, HkKeys(ps), ps)
    ensures s.dailyPnL == Some(DailyPnLPatch(ps, snaps, TargetDate, RealizedPnL(trades)))
  {
    FullSnapshot(TargetDate, ps, HkKeys(ps), trades, txs, DailyPnLPatch(ps, snaps, TargetDate, RealizedPnL(trades)))
  }

  /** The document the patch saves. Unlike the crons it does not skip an
      empty portfolio. */
  function RunPatch(doc: Document, table: map<Ticker, Correction>, now: string): (r: Document)
    ensures r.closedTrades == doc.closedTrades && r.transactions == doc.transactions
    ensures r.priceCache == PatchCache(doc.priceCache, table, now)
    ensures r.positions == PatchPositions(doc.positions, table)
  {
    var ps := PatchPositions(doc.positions, table);
    var snap := PatchSnapshot(ps, doc.closedTrades, doc.transactions, doc.snapshots);
    doc.(priceCache := PatchCache(doc.priceCache, table, now),
         positions := ps,
         snapshots := Upsert(doc.snapshots, snap))
  }

  /** The saved snapshot list: the target date's snapshot, recording the
      patched positions, closing prices under the ".HK" keys, the audit
      array under the raw tickers and the two-case daily P&L, written into
      the list. */
  lemma RunPatchSaves(doc: Document, table: map<Ticker, Correction>, now: string)
    ensures var d := RunPatch(doc, table, now);
            exists x :: Written(doc.snapshots, x, d.snapshots) && x.date == TargetDate
                        && HasTotals(x, d.positions, doc.closedTrades, doc.transactions)
                        && HasCloses(x, HkKeys(d.positions), d.positions)
                        && x.dailyPnL == Some(DailyPnLPatch(d.positions, doc.snapshots, TargetDate,
                                                            RealizedPnL(doc.closedTrades)))
  {
    var ps := PatchPositions(doc.positions, table);
    var snap := PatchSnapshot(ps, doc.closedTrades, doc.transactions, doc.snapshots);
    assert RunPatch(doc, table, now).snapshots == Upsert(doc.snapshots, snap);
    UpsertWrites(doc.snapshots, snap);
  }

  /** The patch is safe to re-run: on a snapshot list in date order, or one
      that already holds the target date, a second run saves exactly what the
      first one did. */
  lemma RunPatchIdempotent(doc: Document, table: map<Ticker, Correction>, now: string)
    requires SortedByDate(doc.snapshots) || exists j :: 0 <= j < |doc.snapshots| && doc.snapshots[j].date == TargetDate
    ensures RunPatch(RunPatch(doc, table, now), table, now) == RunPatch(doc, table, now)
  {
    PatchPositionsIdempotent(doc.positions, table);
    PatchCacheIdempotent(doc.priceCache, table, now);
    PatchSnapshotStable(PatchPositions(doc.positions, table), doc.closedTrades, doc.transactions, doc.snapshots);
  }

  /** Writing the target date's snapshot a second time, computed against the
      list the first write produced, leaves that list as it is. */
  lemma PatchSnapshotStable(ps: seq<Position>, trades: seq<ClosedTrade>, txs: seq<Transaction>, snaps: seq<Snapshot>)
    requires SortedByDate(snaps) || exists j :: 0 <= j < |snaps| && snaps[j].date == TargetDate
    ensures var x := PatchSnapshot(ps, trades, txs, snaps);
            var r := Upsert(snaps, x);
            Upsert(r, PatchSnapshot(ps, trades, txs, r)) == r
  {
    var x := PatchSnapshot(ps, trades, txs, snaps);
    var r := Upsert(snaps, x);
    UpsertKeepsEarlier(snaps, x);
    DailyPnLPatchSameHistory(ps, snaps, r, TargetDate, RealizedPnL(trades));
    assert PatchSnapshot(ps, trades, txs, r) == x;
    UpsertIdempotent(snaps, x);
  }
}

=== FILE: quotes.dfy ===
/** The quote side of the cron scripts: what a chart request returned, how the
    previous close is chosen from it (two variants: US and HK), and the
    change fields derived from it. The HTTP request itself is not modelled:
    its outcome is the `Response` input. */
module Quotes {
  import opened Common
  import opened Records

  /** The `meta` object of a chart result. A result without `meta` reads as
      the meta with no fields, which fails with "No price". */
  datatype Meta = Meta(
    regularMarketPrice: Option<real>,
    previousClose: Option<real>,
    chartPreviousClose: Option<real>,
    currency: Option<string>)

  /** A chart result: meta, bar timestamps (seconds since the epoch) and the
      bars' closes, `None` for a null close. Absent lists are empty. */
  datatype Chart = Chart(meta: Meta, timestamps: seq<int>, closes: seq<Option<real>>)

  /** Outcome of one chart request. `NoResult` is a `chart.result` that is
      absent, or whose first element is null or `{}`. */
  datatype Response = RequestFailed(message: string) | NoResult | Result(chart: Chart)

  /** What a fetch returns: an error, or a quote with its change fields. */
  datatype FetchResult =
    | Failed(error: string)
    | Fetched(price: real, previousClose: real, change: real, changePercent: real,
              currency: string, lastUpdated: string)

  /** The whole fetch result stored as a price-cache entry. */
  function ToCacheEntry(f: FetchResult): CacheEntry
    requires f.Fetched?
  {
    CacheEntry(Some(true), Some(f.price), Some(f.previousClose), Some(f.change),
               Some(f.changePercent), Some(f.currency), Some(f.lastUpdated))
  }

  /** Percentage change from `previousClose` to `price`; 0 when there is no
      previous close to divide by. */
  function ChangePercent(price: real, previousClose: real): (r: real)
    ensures previousClose == 0.0 ==> r == 0.0
    ensures previousClose != 0.0 ==> r * previousClose == (price - previousClose) * 100.0
    ensures r == 0.0 <==> price == previousClose || previousClose == 0.0
  {
    if previousClose != 0.0 then (price - previousClose) / previousClose * 100.0 else 0.0
  }

  /** A fetched quote whose change fields agree with its price and previous close. */
  predicate ChangeFieldsAgree(f: FetchResult) {
    f.Fetched? ==>
      && f.change == f.price - f.previousClose
      && f.changePercent == ChangePercent(f.price, f.previousClose)
  }

  /** The quote built from a price and the chosen previous close. */
  function MakeQuote(price: real, previousClose: real, currency: string, now: string): (f: FetchResult)
    ensures f.Fetched? && f.price == price && f.previousClose == previousClose
    ensures f.currency == currency && f.lastUpdated == now
    ensures ChangeFieldsAgree(f)
  {
    Fetched(price, previousClose, price - previousClose, ChangePercent(price, previousClose), currency, now)
  }

  /** The meta fallback `previousClose or chartPreviousClose or price`. */
  function MetaFallback(m: Meta, price: real): (r: real)
    ensures r == price || (Truthy(m.previousClose) && r == m.previousClose.value)
                       || (Truthy(m.chartPreviousClose) && r == m.chartPreviousClose.value)
    ensures Truthy(m.previousClose) ==> r == m.previousClose.value
    ensures !Truthy(m.previousClose) && Truthy(m.chartPreviousClose) ==> r == m.chartPreviousClose.value
    ensures !Truthy(m.previousClose) && !Truthy(m.chartPreviousClose) ==> r == price
  {
    Or(m.previousClose, Or(m.chartPreviousClose, price))
  }

  /** Bar `i` closed before the UTC day start `todayStart` and has a close. */
  predicate PriorBar(c: Chart, todayStart: int, i: int)
    requires |c.timestamps| <= |c.closes|
  {
    0 <= i < |c.timestamps| && c.closes[i].Some? && c.timestamps[i] < todayStart
  }

  /** Bar `i` is the last bar that closed before today. */
  predicate LatestPriorBar(c: Chart, todayStart: int, i: int)
    requires |c.timestamps| <= |c.closes|
  {
    PriorBar(c, todayStart, i) && forall j :: i < j < |c.timestamps| ==> !PriorBar(c, todayStart, j)
  }

  /** Backward scan over the first `n` bars for one that closed before today. */
  function FindPriorBar(c: Chart, todayStart: int, n: nat): (r: Option<nat>)
    requires n <= |c.timestamps| <= |c.closes|
    ensures r.None? <==> forall i :: 0 <= i < n ==> !PriorBar(c, todayStart, i)
    ensures r.Some? ==> r.value < n && PriorBar(c, todayStart, r.value)
    ensures r.Some? ==> forall j :: r.value < j < n ==> !PriorBar(c, todayStart, j)
    decreases n
  {
    if n == 0 then None
    else if PriorBar(c, todayStart, n - 1) then Some(n - 1)
    else FindPriorBar(c, todayStart, n - 1)
  }

  /** The US previous close: the close of the latest bar before today's UTC
      start; when there is none, or that close is 0, the meta fallback. */
  function PreviousCloseUs(c: Chart, todayStart: int, price: real): (r: real)
    requires |c.timestamps| <= |c.closes|
    ensures forall i :: LatestPriorBar(c, todayStart, i) && c.closes[i].value != 0.0 ==> r == c.closes[i].value
    ensures (forall i :: LatestPriorBar(c, todayStart, i) ==> c.closes[i].value == 0.0) ==> r == MetaFallback(c.meta, price)
  {
    var found := FindPriorBar(c, todayStart, |c.timestamps|);
    assert found.Some? ==> LatestPriorBar(c, todayStart, found.value);
    if found.Some? && c.closes[found.value].value != 0.0 then c.closes[found.value].value
    else MetaFallback(c.meta, price)
  }

  /** Close `i` is the last non-null close before the final bar. */
  predicate LatestCloseBeforeLast(closes: seq<Option<real>>, i: int) {
    0 <= i < |closes| - 1 && closes[i].Some? && forall j :: i < j < |closes| - 1 ==> closes[j].None?
  }

  /** Backward scan over the first `n` closes for a non-null one. */
  function FindClose(closes: seq<Option<real>>, n: nat): (r: Option<nat>)
    requires n <= |closes|
    ensures r.None? <==> forall i :: 0 <= i < n ==> closes[i].None?
    ensures r.Some? ==> r.value < n && closes[r.value].Some?
    ensures r.Some? ==> forall j :: r.value < j < n ==> closes[j].None?
    decreases n
  {
    if n == 0 then None
    else if closes[n - 1].Some? then Some(n - 1)
    else FindClose(closes, n - 1)
  }

  /** The HK previous close: with at least two closes, the last non-null close
      other than the final one (the price itself when all are null); with
      fewer, the meta fallback. A 0 close found by the scan is kept. */
  function PreviousCloseHk(c: Chart, price: real): (r: real)
    ensures |c.closes| >= 2 ==> forall i :: LatestCloseBeforeLast(c.closes, i) ==> r == c.closes[i].value
    ensures |c.closes| >= 2 && (forall i :: 0 <= i < |c.closes| - 1 ==> c.closes[i].None?) ==> r == price
    ensures |c.closes| < 2 ==> r == MetaFallback(c.meta, price)
  {
    if |c.closes| >= 2 then
      var found := FindClose(c.closes, |c.closes| - 1);
      assert found.Some? ==> LatestCloseBeforeLast(c.closes, found.value);
      if found.Some? then c.closes[found.value].value else price
    else MetaFallback(c.meta, price)
  }

  /** What the US fetch can read without an index error: it scans the closes
      at the timestamps' indices. */
  predicate FetchableUs(resp: Response) {
    resp.Result? && resp.chart.meta.regularMarketPrice.Some? ==>
      |resp.chart.timestamps| <= |resp.chart.closes|
  }

  /** The two clock reads one US fetch makes: the epoch second of today's UTC
      midnight, against which bars count as earlier, and the ISO timestamp
      stored as `lastUpdated`. */
  datatype Clock = Clock(todayStart: int, now: string)

  /** The US cron's `fetch_yahoo_price` after the request: errors for a failed
      request, an empty result or a missing price; otherwise the quote with
      the US previous close, currency defaulting to "USD". */
  function FetchUs(resp: Response, todayStart: int, now: string): (f: FetchResult)
    requires FetchableUs(resp)
    ensures f.Fetched? <==> resp.Result? && resp.chart.meta.regularMarketPrice.Some?
    ensures resp.RequestFailed? ==> f == Failed(resp.message)
    ensures resp.NoResult? ==> f == Failed("No data")
    ensures resp.Result? && resp.chart.meta.regularMarketPrice.None? ==> f == Failed("No price")
    ensures f.Fetched? ==>
      && f.price == resp.chart.meta.regularMarketPrice.value
      && f.previousClose == PreviousCloseUs(resp.chart, todayStart, f.price)
      && f.currency == resp.chart.meta.currency.GetOr("USD")
      && f.lastUpdated == now
    ensures ChangeFieldsAgree(f)
  {
    match resp
    case RequestFailed(msg) => Failed(msg)
    case NoResult => Failed("No data")
    case Result(c) =>
      match c.meta.regularMarketPrice
      case None => Failed("No price")
      case Some(price) =>
        MakeQuote(price, PreviousCloseUs(c, todayStart, price), c.meta.currency.GetOr("USD"), now)
  }

  /** The HK cron's `fetch_yahoo_price` after the request: the same error
      cases, the HK previous close, currency defaulting to "HKD". */
  function FetchHk(resp: Response, now: string): (f: FetchResult)
    ensures f.Fetched? <==> resp.Result? && resp.chart.meta.regularMarketPrice.Some?
    ensures resp.RequestFailed? ==> f == Failed(resp.message)
    ensures resp.NoResult? ==> f == Failed("No data")
    ensures resp.Result? && resp.chart.meta.regularMarketPrice.None? ==> f == Failed("No price")
    ensures f.Fetched? ==>
      && f.price == resp.chart.meta.regularMarketPrice.value
      && f.previousClose == PreviousCloseHk(resp.chart, f.price)
      && f.currency == resp.chart.meta.currency.GetOr("HKD")
      && f.lastUpdated == now
    ensures ChangeFieldsAgree(f)
  {
    match resp
    case RequestFailed(msg) => Failed(msg)
    case NoResult => Failed("No data")
    case Result(c) =>
      match c.meta.regularMarketPrice
      case None => Failed("No price")
      case Some(price) =>
        MakeQuote(price, PreviousCloseHk(c, price), c.meta.currency.GetOr("HKD"), now)
  }

  /** With no usable bar before today and no truthy meta field, the US quote
      shows no change: the previous close falls back to the price itself. */
  lemma UsQuoteWithoutHistoryIsFlat(c: Chart, todayStart: int, price: real, now: string)
    requires |c.timestamps| <= |c.closes|
    requires forall i :: 0 <= i < |c.timestamps| ==> !PriorBar(c, todayStart, i)
    requires !Truthy(c.meta.previousClose) && !Truthy(c.meta.chartPreviousClose)
    ensures var f := FetchUs(Result(c.(meta := c.meta.(regularMarketPrice := Some(price)))), todayStart, now);
            f.Fetched? && f.previousClose == price && f.change == 0.0 && f.changePercent == 0.0
  {
    var c' := c.(meta := c.meta.(regularMarketPrice := Some(price)));
    forall i | 0 <= i < |c'.timestamps| ensures !LatestPriorBar(c', todayStart, i) {
      assert !PriorBar(c, todayStart, i);
    }
    assert PreviousCloseUs(c', todayStart, price) == price;
  }
}

=== FILE: records.dfy ===
/** The portfolio document as the cron scripts read and write it. Every field
    the scripts read with a default (`d.get(k, default)`) is an `Option`; the
    fields they index directly (`p["quantity"]`, `s["date"]`) are plain. */
module Records {
  import opened Common

  /** An open holding. The four `addedToday*`/`qtyBeforeToday` fields are the
      transient same-day cohort written when shares are added intraday. */
  datatype Position = Position(
    ticker: Ticker,
    name: Option<string>,
    quantity: real,
    entryPrice: Option<real>,
    currentPrice: Option<real>,
    entryDate: Option<Date>,
    addedTodayDate: Option<Date>,
    addedTodayQty: Option<real>,
    addedTodayPrice: Option<real>,
    qtyBeforeToday: Option<real>)

  /** Entry price, 0 when absent. */
  function EntryPrice(p: Position): real {
    p.entryPrice.GetOr(0.0)
  }

  /** Price a position is valued at: its current price, else its entry price,
      else 0. */
  function MarkPrice(p: Position): real {
    p.currentPrice.GetOr(EntryPrice(p))
  }

  /** A fully or partially closed holding. The fees charged at close are
      recorded but do not enter the cron's realized P&L. */
  datatype ClosedTrade = ClosedTrade(
    ticker: Option<Ticker>,
    quantity: Option<real>,
    entryPrice: Option<real>,
    exitPrice: Option<real>,
    fees: Option<real>)

  /** A cash-flow event; `kind` is the stored `type` ("deposit", "withdrawal",
      "dividend", ...). */
  datatype Transaction = Transaction(kind: Option<string>, amount: Option<real>, ticker: Option<Ticker>)

  /** A price-cache entry as stored under its ticker in `priceCache`. */
  datatype CacheEntry = CacheEntry(
    success: Option<bool>,
    price: Option<real>,
    previousClose: Option<real>,
    change: Option<real>,
    changePercent: Option<real>,
    currency: Option<string>,
    lastUpdated: Option<string>)

  /** One element of a snapshot's `positionsAtClose` audit array.
      `entryDate` is `None` where the document holds the empty string. */
  datatype PositionClose = PositionClose(
    ticker: Ticker,
    name: string,
    quantity: real,
    entryPrice: real,
    entryDate: Option<Date>,
    closingPrice: real,
    marketValue: real,
    pnl: real,
    pnlPercent: real)

  /** A daily snapshot. Snapshots in the list may come from other writers, so
      every field other than `date` may be absent. */
  datatype Snapshot = Snapshot(
    date: Date,
    capitalEngaged: Option<real>,
    portfolioValue: Option<real>,
    unrealizedPnL: Option<real>,
    realizedPnL: Option<real>,
    totalDividends: Option<real>,
    positionCount: Option<nat>,
    closingPrices: Option<map<Ticker, real>>,
    dailyPnL: Option<real>,
    positionsAtClose: Option<seq<PositionClose>>)

  /** The closing prices a snapshot recorded, empty when it has none. */
  function PriorCloses(s: Snapshot): map<Ticker, real> {
    s.closingPrices.GetOr(map[])
  }

  /** The fields of the portfolio document the scripts read or write. */
  datatype Document = Document(
    positions: seq<Position>,
    priceCache: map<Ticker, CacheEntry>,
    snapshots: seq<Snapshot>,
    closedTrades: seq<ClosedTrade>,
    transactions: seq<Transaction>)
}

=== FILE: refresh.dfy ===
/** Step 1 of both crons: one fetch per position, in position order. A
    successful fetch replaces the cache entry under the position's key and
    sets the position's current price; a failed one changes nothing. */
module Refresh {
  import opened Common
  import opened Records
  import opened Quotes

  /** Fetch `i` succeeded and no later fetch under the same key did. */
  predicate LastSuccess(keys: seq<Ticker>, results: seq<FetchResult>, i: int)
    requires |keys| == |results|
  {
    && 0 <= i < |keys|
    && results[i].Fetched?
    && forall j :: i < j < |keys| && keys[j] == keys[i] ==> results[j].Failed?
  }

  /** Some fetch under key `k` succeeded. */
  predicate AnySuccess(keys: seq<Ticker>, results: seq<FetchResult>, k: Ticker)
    requires |keys| == |results|
  {
    exists i :: 0 <= i < |keys| && keys[i] == k && results[i].Fetched?
  }

  /** `r` is `cache` after the fetches `results`, made under `keys`: a key
      is present when it was before or some fetch under it succeeded; a key
      with no successful fetch keeps its entry; a key with one holds the last
      successful result. */
  ghost predicate Stored(cache: map<Ticker, CacheEntry>, keys: seq<Ticker>, results: seq<FetchResult>,
                         r: map<Ticker, CacheEntry>)
    requires |keys| == |results|
  {
    && (forall k :: k in r <==> k in cache || AnySuccess(keys, results, k))
    && (forall k :: k in cache && !AnySuccess(keys, results, k) ==> r[k] == cache[k])
    && (forall i :: LastSuccess(keys, results, i) ==> keys[i] in r && r[keys[i]] == ToCacheEntry(results[i]))
  }

  /** The price cache after the fetches are stored in order
      (`price_cache[key] = result` on success). */
  function StoreResults(cache: map<Ticker, CacheEntry>, keys: seq<Ticker>, results: seq<FetchResult>)
    : (r: map<Ticker, CacheEntry>)
    requires |keys| == |results|
    ensures forall k :: k in r <==> k in cache || AnySuccess(keys, results, k)
    ensures forall k :: k in cache && !AnySuccess(keys, results, k) ==> r[k] == cache[k]
    ensures forall i :: LastSuccess(keys, results, i) ==> keys[i] in r && r[keys[i]] == ToCacheEntry(results[i])
    decreases |keys|
  {
    if |keys| == 0 then cache
    else
      var n := |keys| - 1;
      var c := StoreResults(cache, keys[..n], results[..n]);
      StoreStep(cache, keys, results, c);
      if results[n].Fetched? then c[keys[n] := ToCacheEntry(results[n])] else c
  }

  /** One step of `StoreResults`: storing the last fetch on top of the cache
      built from the others. */
  lemma StoreStep(cache: map<Ticker, CacheEntry>, keys: seq<Ticker>, results: seq<FetchResult>,
                  c: map<Ticker, CacheEntry>)
    requires |keys| == |results| > 0
    requires Stored(cache, keys[..|keys| - 1], results[..|keys| - 1], c)
    ensures var n := |keys| - 1;
            Stored(cache, keys, results, if results[n].Fetched? then c[keys[n] := ToCacheEntry(results[n])] else c)
  {
    var n := |keys| - 1;
    var r := if results[n].Fetched? then c[keys[n] := ToCacheEntry(results[n])] else c;
    AnySuccessStep(keys, results);
    assert forall k :: k in r <==> k in cache || AnySuccess(keys, results, k);
    assert forall k :: k in cache && !AnySuccess(keys, results, k) ==> r[k] == cache[k];
    StoreStepLast(cache, keys, results, c);
  }

  /** The last-success part of `StoreStep`. */
  lemma StoreStepLast(cache: map<Ticker, CacheEntry>, keys: seq<Ticker>, results: seq<FetchResult>,
                      c: map<Ticker, CacheEntry>)
    requires |keys| == |results| > 0
    requires Stored(cache, keys[..|keys| - 1], results[..|keys| - 1], c)
    ensures var n := |keys| - 1;
            var r := if results[n].Fetched? then c[keys[n] := ToCacheEntry(results[n])] else c;
            forall i :: LastSuccess(keys, results, i) ==> keys[i] in r && r[keys[i]] == ToCacheEntry(results[i])
  {
    var n := |keys| - 1;
    var r := if results[n].Fetched? then c[keys[n] := ToCacheEntry(results[n])] else c;
    forall i | LastSuccess(keys, results, i) ensures keys[i] in r && r[keys[i]] == ToCacheEntry(results[i]) {
      if i < n {
        assert LastSuccess(keys[..n], results[..n], i);
        if results[n].Fetched? {
          assert keys[n] != keys[i];
        }
      }
    }
  }

  /** A key has a successful fetch among all fetches when it has one among
      all but the last, or the last is a success under it. */
  lemma AnySuccessStep(keys: seq<Ticker>, results: seq<FetchResult>)
    requires |keys| == |results| > 0
    ensures var n := |keys| - 1;
            forall k :: AnySuccess(keys, results, k) <==>
                          AnySuccess(keys[..n], results[..n], k) || (keys[n] == k && results[n].Fetched?)
  {
    var n := |keys| - 1;
    var ks, rs := keys[..n], results[..n];
    forall k | AnySuccess(keys, results, k)
      ensures AnySuccess(ks, rs, k) || (keys[n] == k && results[n].Fetched?)
    {
      var i :| 0 <= i < |keys| && keys[i] == k && results[i].Fetched?;
      if i < n {
        assert ks[i] == k && rs[i].Fetched?;
      }
    }
    forall k | AnySuccess(ks, rs, k) ensures AnySuccess(keys, results, k) {
      var i :| 0 <= i < |ks| && ks[i] == k && rs[i].Fetched?;
      assert keys[i] == k && results[i].Fetched?;
    }
  }

  /** The position after its fetch: it carries `ticker`, and the fetched price
      when the fetch succeeded. */
  function Refreshed(p: Position, ticker: Ticker, f: FetchResult): Position {
    p.(ticker := ticker, currentPrice := if f.Fetched? then Some(f.price) else p.currentPrice)
  }

  /** The positions after their fetches, under the tickers they are written
      back with. */
  function RefreshPositions(ps: seq<Position>, tickers: seq<Ticker>, results: seq<FetchResult>)
    : (r: seq<Position>)
    requires |ps| == |tickers| == |results|
    ensures |r| == |ps|
    ensures forall i :: 0 <= i < |ps| ==> r[i].ticker == tickers[i]
    ensures forall i :: 0 <= i < |ps| && results[i].Fetched? ==> r[i].currentPrice == Some(results[i].price)
    ensures forall i :: 0 <= i < |ps| && results[i].Failed? ==> r[i].currentPrice == ps[i].currentPrice
    ensures forall i :: 0 <= i < |ps| ==>
              r[i] == ps[i].(ticker := r[i].ticker, currentPrice := r[i].currentPrice)
  {
    seq(|ps|, i requires 0 <= i < |ps| => Refreshed(ps[i], tickers[i], results[i]))
  }
}

=== FILE: summary.dfy ===
/** The day's snapshot record: the seven totals every script writes, and the
    `closingPrices` map, `dailyPnL` and `positionsAtClose` audit array that
    the US cron and the patch script add. */
module Summary {
  import opened Common
  import opened Records
  import opened Aggregates
  import opened Tickers

  /** The tickers of the positions, in order. */
  function TickerList(ps: seq<Position>): (r: seq<Ticker>)
    ensures |r| == |ps| && forall i :: 0 <= i < |ps| ==> r[i] == ps[i].ticker
  {
    seq(|ps|, i requires 0 <= i < |ps| => ps[i].ticker)
  }

  /** The ".HK" keys of the positions: "b.HK" rewritten to ".HK". */
  function HkKeys(ps: seq<Position>): (r: seq<Ticker>)
    ensures |r| == |ps| && forall i :: 0 <= i < |ps| ==> r[i] == HkTicker(ps[i].ticker)
  {
    seq(|ps|, i requires 0 <= i < |ps| => HkTicker(ps[i].ticker))
  }

  /** `s` records the totals of the positions `ps`, the closed trades and the
      transactions. */
  predicate HasTotals(s: Snapshot, ps: seq<Position>, trades: seq<ClosedTrade>, txs: seq<Transaction>) {
    && s.capitalEngaged == Some(CapitalEngaged(ps))
    && s.portfolioValue == Some(PortfolioValue(ps))
    && s.unrealizedPnL == Some(PortfolioValue(ps) - CapitalEngaged(ps))
    && s.realizedPnL == Some(RealizedPnL(trades))
    && s.totalDividends == Some(TotalDividends(txs))
    && s.positionCount == Some(|ps|)
  }

  /** `s` records each position's mark price under its key in `keys` (a later
      position winning over an earlier one with the same key) and one audit
      record per position. */
  ghost predicate HasCloses(s: Snapshot, keys: seq<Ticker>, ps: seq<Position>)
    requires |keys| == |ps|
  {
    && s.closingPrices.Some?
    && (forall k :: k in s.closingPrices.value <==> k in keys)
    && (forall i :: LastWithKey(keys, i) ==> keys[i] in s.closingPrices.value && s.closingPrices.value[keys[i]] == MarkPrice(ps[i]))
    && s.positionsAtClose == Some(PositionsAtClose(ps))
  }

  /** The seven-field snapshot written by the HK cron. */
  function TotalsSnapshot(today: Date, ps: seq<Position>, trades: seq<ClosedTrade>, txs: seq<Transaction>)
    : (s: Snapshot)
    ensures s.date == today && HasTotals(s, ps, trades, txs)
    ensures s.closingPrices.None? && s.dailyPnL.None? && s.positionsAtClose.None?
  {
    var value := PortfolioValue(ps);
    var capital := CapitalEngaged(ps);
    Snapshot(today, Some(capital), Some(value), Some(value - capital), Some(RealizedPnL(trades)),
             Some(TotalDividends(txs)), Some(|ps|), None, None, None)
  }

  /** The ten-field snapshot written by the US cron and the patch script:
      closing prices under `keys`, the audit array and `daily`. */
  function FullSnapshot(today: Date, ps: seq<Position>, keys: seq<Ticker>, trades: seq<ClosedTrade>,
                        txs: seq<Transaction>, daily: real): (s: Snapshot)
    requires |keys| == |ps|
    ensures s.date == today && HasTotals(s, ps, trades, txs) && HasCloses(s, keys, ps)
    ensures s.dailyPnL == Some(daily)
  {
    TotalsSnapshot(today, ps, trades, txs).(
      closingPrices := Some(ClosingPrices(keys, MarkPrices(ps))),
      dailyPnL := Some(daily),
      positionsAtClose := Some(PositionsAtClose(ps)))
  }

  /** A snapshot that records both its totals and its audit array is
      internally consistent: the audit market values add up to the portfolio
      value and the audit P&L to the unrealized P&L. */
  lemma AuditMatchesTotals(s: Snapshot, ps: seq<Position>, trades: seq<ClosedTrade>, txs: seq<Transaction>)
    requires HasTotals(s, ps, trades, txs) && s.positionsAtClose == Some(PositionsAtClose(ps))
    ensures Sum(s.positionsAtClose.value, MarketValueOf) == s.portfolioValue.value
    ensures Sum(s.positionsAtClose.value, PnLOf) == s.unrealizedPnL.value
  {
    PositionsAtCloseTotals(ps);
  }
}

=== FILE: tickers.dfy ===
/** Ticker spellings: the US cron's in-place normalisation
    (`strip`, drop ".HK", `upper`) and the HK scripts' "b.HK" -> ".HK" rewrite
    used as the price-cache and closing-price key. */
module Tickers {
  import opened Common

  /** Characters for which Python's `str.isspace` holds, i.e. what a bare
      `strip()` removes. */
  predicate IsSpace(c: char) {
    || c == ' '
    || ('\t' <= c <= '\r')
    || ('\U{1C}' <= c <= '\U{1F}')
    || c == '\U{85}' || c == '\U{A0}' || c == '\U{1680}'
    || ('\U{2000}' <= c <= '\U{200A}')
    || c == '\U{2028}' || c == '\U{2029}' || c == '\U{202F}'
    || c == '\U{205F}' || c == '\U{3000}'
  }

  /** Number of leading whitespace characters. */
  function LeadingSpaces(s: string): (n: nat)
    ensures n <= |s|
    ensures forall k :: 0 <= k < n ==> IsSpace(s[k])
    ensures n < |s| ==> !IsSpace(s[n])
    decreases |s|
  {
    if |s| == 0 || !IsSpace(s[0]) then 0 else 1 + LeadingSpaces(s[1..])
  }

  /** Length of `s` once its trailing whitespace is cut off. */
  function TrimmedEnd(s: string): (n: nat)
    ensures n <= |s|
    ensures forall k :: n <= k < |s| ==> IsSpace(s[k])
    ensures n > 0 ==> !IsSpace(s[n - 1])
    decreases |s|
  {
    if |s| == 0 || !IsSpace(s[|s| - 1]) then |s| else TrimmedEnd(s[..|s| - 1])
  }

  /** `s.strip()`: the slice of `s` between its leading and trailing whitespace. */
  function Strip(s: string): (r: string)
    ensures exists i, j :: 0 <= i <= j <= |s| && r == s[i..j]
              && (forall k :: 0 <= k < i ==> IsSpace(s[k]))
              && (forall k :: j <= k < |s| ==> IsSpace(s[k]))
    ensures |r| > 0 ==> !IsSpace(r[0]) && !IsSpace(r[|r| - 1])
  {
    var i := LeadingSpaces(s);
    var t := s[i..];
    var j := TrimmedEnd(t);
    assert t[..j] == s[i..i + j];
    assert j > 0 ==> t[0] == s[i];
    t[..j]
  }

  predicate IsLowerAscii(c: char) {
    'a' <= c <= 'z'
  }

  function UpperChar(c: char): char {
    if IsLowerAscii(c) then (c as int - 32) as char else c
  }

  /** `s.upper()` on ASCII letters. */
  function Upper(s: string): (r: string)
    ensures |r| == |s|
    ensures forall k :: 0 <= k < |r| ==> !IsLowerAscii(r[k])
    ensures forall k :: 0 <= k < |s| && IsLowerAscii(s[k]) ==> r[k] as int == s[k] as int - 32
    ensures forall k :: 0 <= k < |s| && !IsLowerAscii(s[k]) ==> r[k] == s[k]
  {
    seq(|s|, k requires 0 <= k < |s| => UpperChar(s[k]))
  }

  predicate OccursAt(s: string, pat: string, i: int) {
    0 <= i && i + |pat| <= |s| && s[i..i + |pat|] == pat
  }

  /** `pat` occurs somewhere in `s`, found by a left-to-right scan
      (`OccursSomewhere` relates it to `OccursAt`). */
  predicate Occurs(s: string, pat: string)
    decreases |s|
  {
    |pat| <= |s| && (|pat| == 0 || s[..|pat|] == pat || Occurs(s[1..], pat))
  }

  /** The scan finds `pat` exactly when it occurs at some index. */
  lemma {:induction false} OccursSomewhere(s: string, pat: string)
    ensures Occurs(s, pat) <==> exists i :: 0 <= i <= |s| && OccursAt(s, pat, i)
    decreases |s|
  {
    if |pat| <= |s| && |pat| > 0 && s[..|pat|] != pat {
      OccursSomewhere(s[1..], pat);
      if exists i :: 0 <= i <= |s| && OccursAt(s, pat, i) {
        var i :| 0 <= i <= |s| && OccursAt(s, pat, i);
        assert i != 0;
        assert s[1..][i - 1..i - 1 + |pat|] == s[i..i + |pat|];
        assert OccursAt(s[1..], pat, i - 1);
      }
      if Occurs(s[1..], pat) {
        var i :| 0 <= i <= |s[1..]| && OccursAt(s[1..], pat, i);
        assert s[i + 1..i + 1 + |pat|] == s[1..][i..i + |pat|];
        assert OccursAt(s, pat, i + 1);
      }
    } else if |pat| <= |s| {
      assert OccursAt(s, pat, 0);
    }
  }

  /** `pat` occurs at `i` and nowhere before it. */
  predicate FirstOccurrence(s: string, pat: string, i: int) {
    OccursAt(s, pat, i) && forall j :: 0 <= j < i ==> !OccursAt(s, pat, j)
  }

  /** `s.replace(pat, rep)`: every non-overlapping occurrence of `pat`, scanning
      left to right, is replaced by `rep`. Without an occurrence the string
      is unchanged; with one, a shorter `rep` makes it strictly shorter.
      `ReplaceAtFirst` states where the first replacement goes and how the
      scan resumes. */
  function ReplaceAll(s: string, pat: string, rep: string): (r: string)
    requires |pat| > 0
    ensures !Occurs(s, pat) ==> r == s
    ensures |rep| <= |pat| ==> |r| <= |s|
    ensures Occurs(s, pat) && |rep| < |pat| ==> |r| < |s|
    decreases |s|
  {
    if |s| < |pat| then s
    else if s[..|pat|] == pat then rep + ReplaceAll(s[|pat|..], pat, rep)
    else
      assert Occurs(s, pat) <==> Occurs(s[1..], pat);
      assert !Occurs(s, pat) ==> [s[0]] + s[1..] == s;
      [s[0]] + ReplaceAll(s[1..], pat, rep)
  }

  /** A first occurrence past the start of `s` is the first occurrence, one
      position earlier, in `s` without its first character. */
  lemma FirstOccurrenceShift(s: string, pat: string, i: int)
    requires |pat| > 0 && FirstOccurrence(s, pat, i) && !OccursAt(s, pat, 0)
    ensures i >= 1 && FirstOccurrence(s[1..], pat, i - 1)
  {
    assert i != 0;
    assert s[1..][i - 1..i - 1 + |pat|] == s[i..i + |pat|];
    forall j | 0 <= j < i - 1 ensures !OccursAt(s[1..], pat, j) {
      if OccursAt(s[1..], pat, j) {
        assert s[1..][j..j + |pat|] == s[j + 1..j + 1 + |pat|];
        assert OccursAt(s, pat, j + 1);
      }
    }
  }

  /** The replacement resumes after the first occurrence: everything before
      it is kept, it becomes `rep`, and the rest is rewritten on its own. */
  lemma ReplaceAtFirst(s: string, pat: string, rep: string, i: int)
    requires |pat| > 0 && FirstOccurrence(s, pat, i)
    ensures ReplaceAll(s, pat, rep) == s[..i] + rep + ReplaceAll(s[i + |pat|..], pat, rep)
  {
    ReplaceBeforeRest(s, pat, rep, i, s[i + |pat|..]);
  }

  /** `ReplaceAtFirst`, with the text after the first occurrence named `u`. */
  lemma {:induction false} ReplaceBeforeRest(s: string, pat: string, rep: string, i: int, u: string)
    requires |pat| > 0 && FirstOccurrence(s, pat, i) && u == s[i + |pat|..]
    ensures ReplaceAll(s, pat, rep) == s[..i] + rep + ReplaceAll(u, pat, rep)
    decreases i
  {
    if OccursAt(s, pat, 0) {
      assert i == 0;
      ReplaceAtStart(s, pat, rep);
    } else {
      var t, m := s[1..], i - 1;
      FirstOccurrenceShift(s, pat, i);
      ShiftSlices(s, t, i, m, |pat|);
      ReplaceBeforeRest(t, pat, rep, m, u);
      ReplaceKeepsFirstStep(s, pat, rep);
      GlueFirst(s, t, i, m, rep, ReplaceAll(s, pat, rep), ReplaceAll(t, pat, rep), ReplaceAll(u, pat, rep));
    }
  }

  lemma ShiftSlices(s: string, t: string, i: int, m: int, n: nat)
    requires |s| > 0 && t == s[1..] && m == i - 1 && 0 <= m && i + n <= |s|
    ensures t[m + n..] == s[i + n..]
  {
  }

  /** Putting the first character back in front of the rewritten rest. */
  lemma GlueFirst(s: string, t: string, i: int, m: int, rep: string, rs: string, rt: string, tail: string)
    requires |s| > 0 && t == s[1..] && m == i - 1 && 0 <= m && i <= |s|
    requires rs == [s[0]] + rt && rt == t[..m] + rep + tail
    ensures rs == s[..i] + rep + tail
  {
    assert [s[0]] + t[..m] == s[..i];
    assert [s[0]] + (t[..m] + rep + tail) == ([s[0]] + t[..m]) + rep + tail;
  }

  /** An occurrence at the start becomes `rep`. */
  lemma ReplaceAtStart(s: string, pat: string, rep: string)
    requires |pat| > 0 && OccursAt(s, pat, 0)
    ensures ReplaceAll(s, pat, rep) == s[..0] + rep + ReplaceAll(s[|pat|..], pat, rep)
  {
    assert s[..|pat|] == pat;
    assert s[..0] + rep == rep;
  }

  /** Without an occurrence at the start, the first character is copied. */
  lemma ReplaceKeepsFirstStep(s: string, pat: string, rep: string)
    requires |pat| > 0 && |s| > 0 && !OccursAt(s, pat, 0)
    ensures ReplaceAll(s, pat, rep) == [s[0]] + ReplaceAll(s[1..], pat, rep)
  {
    if |s| < |pat| {
      assert !Occurs(s, pat) && !Occurs(s[1..], pat);
      assert [s[0]] + s[1..] == s;
    }
  }

  /** The US cron's ticker clean-up, written back into the position:
      `ticker.strip().replace(".HK", "").upper()`. */
  function UsTicker(t: Ticker): Ticker {
    Upper(ReplaceAll(Strip(t), ".HK", ""))
  }

  /** The HK scripts' quote symbol and cache key: `ticker.replace("b.HK", ".HK")`. */
  function HkTicker(t: Ticker): Ticker {
    ReplaceAll(t, "b.HK", ".HK")
  }

  /** A ticker the US clean-up leaves alone. */
  predicate IsCleanUsTicker(t: Ticker) {
    && (|t| > 0 ==> !IsSpace(t[0]) && !IsSpace(t[|t| - 1]))
    && !Occurs(t, ".HK")
    && forall k :: 0 <= k < |t| ==> !IsLowerAscii(t[k])
  }

  /** The clean-up never leaves a lower-case ASCII letter and never makes the
      ticker longer. */
  lemma UsTickerShape(t: Ticker)
    ensures |UsTicker(t)| <= |t|
    ensures forall k :: 0 <= k < |UsTicker(t)| ==> !IsLowerAscii(UsTicker(t)[k])
  {
    var s := Strip(t);
    assert |s| <= |t|;
  }

  /** A ticker that is already trimmed, has no ".HK" and no lower-case letter is
      a fixed point, so the daily in-place rewrite is stable on it. */
  lemma UsTickerFixesClean(t: Ticker)
    requires IsCleanUsTicker(t)
    ensures UsTicker(t) == t
  {
    assert LeadingSpaces(t) == 0;
    assert t[0..] == t;
    assert TrimmedEnd(t) == |t|;
    assert t[..|t|] == t;
    assert Strip(t) == t;
    assert ReplaceAll(t, ".HK", "") == t;
    assert Upper(t) == t;
  }

  /** The clean-up is not idempotent: a lower-case ".hk" survives the removal,
      is upper-cased, and is removed only on the next run. */
  lemma UsTickerSecondRunDiffers()
    ensures UsTicker("A.hk") == "A.HK"
    ensures UsTicker(UsTicker("A.hk")) == "A"
  {
    UsTickerLowerSuffix();
    UsTickerUpperSuffix();
  }

  lemma UsTickerLowerSuffix()
    ensures UsTicker("A.hk") == "A.HK"
  {
    var t := "A.hk";
    assert LeadingSpaces(t) == 0;
    assert t[0..] == t;
    assert TrimmedEnd(t) == 4;
    assert t[..4] == t;
    assert Strip(t) == t;
    forall i | 0 <= i <= |t| ensures !OccursAt(t, ".HK", i) {
      if i + 3 <= |t| {
        assert t[i..i + 3][2] != ".HK"[2];
      }
    }
    OccursSomewhere(t, ".HK");
    assert ReplaceAll(t, ".HK", "") == t;
    var u := Upper(t);
    assert u[0] == 'A' && u[1] == '.' && u[2] == 'H' && u[3] == 'K';
    assert u == "A.HK";
  }

  lemma UsTickerUpperSuffix()
    ensures UsTicker("A.HK") == "A"
  {
    var u := "A.HK";
    assert LeadingSpaces(u) == 0;
    assert u[0..] == u;
    assert TrimmedEnd(u) == 4;
    assert u[..4] == u;
    assert Strip(u) == u;
    var v := u[1..];
    assert v == ".HK";
    assert u[..3][0] != ".HK"[0];
    ReplaceKeepsFirstStep(u, ".HK", "");
    assert v[..3] == ".HK";
    ReplaceAtStart(v, ".HK", "");
    assert v[3..] == [];
    assert ReplaceAll(v, ".HK", "") == [];
    assert ReplaceAll(u, ".HK", "") == "A";
    assert Upper("A") == "A";
  }

  /** The US clean-up drops a ".HK" suffix: a trimmed upper-case code with
      no "." followed by ".HK" is written back as the bare code. */
  lemma UsTickerDropsSuffix(code: string)
    requires forall k :: 0 <= k < |code| ==> code[k] != '.' && !IsLowerAscii(code[k])
    requires |code| > 0 ==> !IsSpace(code[0])
    ensures UsTicker(code + ".HK") == code
  {
    StripSuffixed(code);
    ReplaceDropsSuffix(code);
    assert Upper(code) == code;
  }

  lemma StripSuffixed(code: string)
    requires |code| > 0 ==> !IsSpace(code[0])
    ensures Strip(code + ".HK") == code + ".HK"
  {
    var t := code + ".HK";
    assert LeadingSpaces(t) == 0 by {
      assert t[0] == if |code| > 0 then code[0] else '.';
    }
    assert t[0..] == t;
    assert TrimmedEnd(t) == |t| by {
      assert t[|t| - 1] == 'K';
    }
    assert t[..|t|] == t;
  }

  lemma ReplaceDropsSuffix(code: string)
    requires forall k :: 0 <= k < |code| ==> code[k] != '.'
    ensures ReplaceAll(code + ".HK", ".HK", "") == code
  {
    var t := code + ".HK";
    var n := |code|;
    SuffixIsFirst(code);
    ReplaceAtFirst(t, ".HK", "", n);
    assert t[..n] == code && t[n + 3..] == [];
    assert ReplaceAll([], ".HK", "") == [];
  }

  /** In a code with no "." followed by ".HK", the suffix is the first
      ".HK". */
  lemma SuffixIsFirst(code: string)
    requires forall k :: 0 <= k < |code| ==> code[k] != '.'
    ensures FirstOccurrence(code + ".HK", ".HK", |code|)
  {
    var t := code + ".HK";
    var n := |code|;
    assert t[n..n + 3] == ".HK";
    forall j | 0 <= j < n ensures !OccursAt(t, ".HK", j) {
      assert t[j] == code[j];
      if j + 3 <= |t| {
        assert t[j..j + 3][0] == t[j];
      }
    }
  }

  /** The HK rewrite turns a "b.HK" suffix into ".HK" when the code before it
      has no "b". */
  lemma {:induction false} HkTickerRewritesSuffix(code: string)
    requires forall k :: 0 <= k < |code| ==> code[k] != 'b'
    ensures HkTicker(code + "b.HK") == code + ".HK"
    decreases |code|
  {
    if |code| == 0 {
      assert code + "b.HK" == "b.HK" && code + ".HK" == ".HK";
      HkTickerOfSuffix();
    } else {
      HkTickerRewritesSuffix(code[1..]);
      HkTickerSuffixStep(code);
    }
  }

  /** The suffix on its own is rewritten. */
  lemma HkTickerOfSuffix()
    ensures HkTicker("b.HK") == ".HK"
  {
    var pat := "b.HK";
    assert pat[..4] == pat && pat[4..] == [];
    assert ReplaceAll([], pat, ".HK") == [];
  }

  /** A leading character other than "b" is copied through the rewrite. */
  lemma HkTickerSuffixStep(code: string)
    requires |code| > 0 && code[0] != 'b'
    requires HkTicker(code[1..] + "b.HK") == code[1..] + ".HK"
    ensures HkTicker(code + "b.HK") == code + ".HK"
  {
    var pat, rep := "b.HK", ".HK";
    var tail := code[1..] + pat;
    ReplaceKeepsFirst(code[0], tail, pat, rep);
    assert code + pat == [code[0]] + tail;
    assert ReplaceAll(tail, pat, rep) == code[1..] + rep;
    assert ReplaceAll(code + pat, pat, rep) == [code[0]] + (code[1..] + rep);
    assert [code[0]] + (code[1..] + rep) == code + rep;
  }

  lemma ReplaceKeepsFirst(c: char, rest: string, pat: string, rep: string)
    requires |pat| > 0 && c != pat[0]
    ensures ReplaceAll([c] + rest, pat, rep) == [c] + ReplaceAll(rest, pat, rep)
  {
    var s := [c] + rest;
    assert s[1..] == rest;
    if |s| >= |pat| {
      assert s[..|pat|][0] != pat[0];
    } else {
      assert !Occurs(rest, pat);
    }
  }

  /** A ticker with no "b" is left alone by the HK rewrite. */
  lemma HkTickerKeepsPlain(t: Ticker)
    requires forall k :: 0 <= k < |t| ==> t[k] != 'b'
    ensures HkTicker(t) == t
  {
    forall i | 0 <= i <= |t| ensures !OccursAt(t, "b.HK", i) {
      if i + 4 <= |t| {
        assert t[i..i + 4][0] != "b.HK"[0];
      }
    }
    OccursSomewhere(t, "b.HK");
  }
}

=== FILE: update_hk.dfy ===
/** The HK cron's `run`: refresh every position's price, cache the result under
    the ".HK" form of its ticker, and write the seven-field snapshot into the
    snapshot list. Positions keep their tickers and cohort fields. The Yahoo
    responses, the run date `today` and, for each fetch, the timestamp it
    stamps are inputs. */
module HkUpdate {
  import opened Common
  import opened Records
  import opened Tickers
  import opened Quotes
  import opened Refresh
  import opened Summary
  import opened SnapshotList

  /** One fetch per position, in order, each stamped with its own clock read. */
  function FetchAllHk(responses: seq<Response>, nows: seq<string>): (r: seq<FetchResult>)
    requires |nows| == |responses|
    ensures |r| == |responses| && forall i :: 0 <= i < |responses| ==> r[i] == FetchHk(responses[i], nows[i])
  {
    seq(|responses|, i requires 0 <= i < |responses| => FetchHk(responses[i], nows[i]))
  }

  /** The document the HK cron saves, or `None` when there are no positions
      and nothing is computed or written. */
  function RunHk(doc: Document, today: Date, nows: seq<string>, responses: seq<Response>): (r: Option<Document>)
    requires |nows| == |responses| == |doc.positions|
    ensures r.None? <==> |doc.positions| == 0
    ensures r.Some? ==> r.value.closedTrades == doc.closedTrades && r.value.transactions == doc.transactions
  {
    if |doc.positions| == 0 then None
    else
      var results := FetchAllHk(responses, nows);
      var ps := RefreshPositions(doc.positions, TickerList(doc.positions), results);
      var snap := TotalsSnapshot(today, ps, doc.closedTrades, doc.transactions);
      Some(doc.(positions := ps,
                priceCache := StoreResults(doc.priceCache, HkKeys(doc.positions), results),
                snapshots := Upsert(doc.snapshots, snap)))
  }

  /** The saved positions `qs`: at the fetched price when the fetch
      succeeded, and otherwise exactly as before. */
  ghost predicate PricesRefreshed(ps: seq<Position>, results: seq<FetchResult>, qs: seq<Position>) {
    && |qs| == |ps| == |results|
    && forall i :: 0 <= i < |ps| ==>
         qs[i] == ps[i].(currentPrice := if results[i].Fetched? then Some(results[i].price) else ps[i].currentPrice)
  }

  /** What a run saves: refreshed prices, the successful fetches cached under
      the ".HK" keys, and a seven-field snapshot for `today` recording the
      saved positions, written into the snapshot list. */
  lemma RunHkSaves(doc: Document, today: Date, nows: seq<string>, responses: seq<Response>)
    requires |nows| == |responses| == |doc.positions| > 0
    ensures var d := RunHk(doc, today, nows, responses).value;
            var results := FetchAllHk(responses, nows);
            && PricesRefreshed(doc.positions, results, d.positions)
            && Stored(doc.priceCache, HkKeys(doc.positions), results, d.priceCache)
            && exists x :: Written(doc.snapshots, x, d.snapshots) && x.date == today
                           && HasTotals(x, d.positions, doc.closedTrades, doc.transactions)
                           && x.closingPrices.None? && x.dailyPnL.None? && x.positionsAtClose.None?
  {
    var d := RunHk(doc, today, nows, responses).value;
    var results := FetchAllHk(responses, nows);
    var ps := RefreshPositions(doc.positions, TickerList(doc.positions), results);
    var snap := TotalsSnapshot(today, ps, doc.closedTrades, doc.transactions);
    assert d.positions == ps;
    assert d.snapshots == Upsert(doc.snapshots, snap);
    UpsertWrites(doc.snapshots, snap);
  }

  /** An existing snapshot for `today` is replaced wholesale: whatever
      `closingPrices`, `dailyPnL` or `positionsAtClose` it held is gone, and
      no other snapshot moves. */
  lemma RunHkReplacesWholesale(doc: Document, today: Date, nows: seq<string>, responses: seq<Response>, k: nat)
    requires |nows| == |responses| == |doc.positions| > 0
    requires FirstWithDate(doc.snapshots, today, k)
    ensures var r := RunHk(doc, today, nows, responses).value.snapshots;
            && |r| == |doc.snapshots|
            && r[k].date == today
            && r[k].closingPrices.None? && r[k].dailyPnL.None? && r[k].positionsAtClose.None?
            && forall j :: 0 <= j < |r| && j != k ==> r[j] == doc.snapshots[j]
  {
    var results := FetchAllHk(responses, nows);
    var ps := RefreshPositions(doc.positions, TickerList(doc.positions), results);
    var snap := TotalsSnapshot(today, ps, doc.closedTrades, doc.transactions);
    assert RunHk(doc, today, nows, responses).value.snapshots == Upsert(doc.snapshots, snap);
  }
}

=== FILE: update_us.dfy ===
/** One user's run of the US cron (`update_portfolio`): refresh every
    position's price under its cleaned ticker, build the ten-field snapshot,
    write it into the snapshot list and drop the same-day cohort fields. The
    Yahoo responses, the run date `today` and, for each fetch, the clock reads
    it makes (`Quotes.Clock`) are inputs. */
module UsUpdate {
  import opened Common
  import opened Records
  import opened Tickers
  import opened Quotes
  import opened Refresh
  import opened Aggregates
  import opened Daily
  import opened Summary
  import opened SnapshotList
  import opened Cleanup

  /** The tickers the US cron fetches and writes back. */
  function UsKeys(ps: seq<Position>): (r: seq<Ticker>)
    ensures |r| == |ps| && forall i :: 0 <= i < |ps| ==> r[i] == UsTicker(ps[i].ticker)
  {
    seq(|ps|, i requires 0 <= i < |ps| => UsTicker(ps[i].ticker))
  }

  /** One fetch per position, in order, each reading the clock itself. */
  function FetchAllUs(responses: seq<Response>, clocks: seq<Clock>): (r: seq<FetchResult>)
    requires |clocks| == |responses|
    requires forall i :: 0 <= i < |responses| ==> FetchableUs(responses[i])
    ensures |r| == |responses|
    ensures forall i :: 0 <= i < |responses| ==> r[i] == FetchUs(responses[i], clocks[i].todayStart, clocks[i].now)
  {
    seq(|responses|, i requires 0 <= i < |responses| => FetchUs(responses[i], clocks[i].todayStart, clocks[i].now))
  }

  /** The saved positions `qs`: each under its cleaned ticker, at its fetched
      price when the fetch succeeded, without cohort fields, and otherwise as
      before. */
  ghost predicate PositionsSaved(ps: seq<Position>, results: seq<FetchResult>, qs: seq<Position>) {
    && |qs| == |ps| == |results|
    && forall i :: 0 <= i < |ps| ==>
         && qs[i].ticker == UsTicker(ps[i].ticker)
         && qs[i].currentPrice == (if results[i].Fetched? then Some(results[i].price) else ps[i].currentPrice)
         && NoCohortFields(qs[i])
         && qs[i].name == ps[i].name && qs[i].quantity == ps[i].quantity
         && qs[i].entryPrice == ps[i].entryPrice && qs[i].entryDate == ps[i].entryDate
  }

  /** The saved snapshot list `r`: the day's snapshot, recording the saved
      positions `ps` and the daily P&L `daily`, written into `snaps`. */
  ghost predicate SnapshotsSaved(snaps: seq<Snapshot>, today: Date, r: seq<Snapshot>, ps: seq<Position>,
                                 trades: seq<ClosedTrade>, txs: seq<Transaction>, daily: real) {
    exists x :: Written(snaps, x, r) && x.date == today && HasTotals(x, ps, trades, txs)
                && HasCloses(x, TickerList(ps), ps) && x.dailyPnL == Some(daily)
  }

  /** The positions as they stand when the snapshot is taken: refreshed, with
      the cohort fields still present. */
  function RefreshedUs(doc: Document, clocks: seq<Clock>, responses: seq<Response>)
    : (r: seq<Position>)
    requires |clocks| == |responses| == |doc.positions|
    requires forall i :: 0 <= i < |responses| ==> FetchableUs(responses[i])
    ensures |r| == |doc.positions|
  {
    RefreshPositions(doc.positions, UsKeys(doc.positions), FetchAllUs(responses, clocks))
  }

  /** The day's snapshot for the refreshed positions `ps`. */
  function DaySnapshotUs(doc: Document, today: Date, ps: seq<Position>): (s: Snapshot)
    ensures s.date == today
    ensures HasTotals(s, ps, doc.closedTrades, doc.transactions) && HasCloses(s, TickerList(ps), ps)
    ensures s.dailyPnL == Some(DailyPnLUs(ps, doc.snapshots, today, RealizedPnL(doc.closedTrades)))
  {
    FullSnapshot(today, ps, TickerList(ps), doc.closedTrades, doc.transactions,
                 DailyPnLUs(ps, doc.snapshots, today, RealizedPnL(doc.closedTrades)))
  }

  /** The document the US cron saves for one user, or `None` when the user
      holds no positions and the run is skipped. */
  function UpdatePortfolio(doc: Document, today: Date, clocks: seq<Clock>, responses: seq<Response>)
    : (r: Option<Document>)
    requires |clocks| == |responses| == |doc.positions|
    requires forall i :: 0 <= i < |responses| ==> FetchableUs(responses[i])
    ensures r.None? <==> |doc.positions| == 0
    ensures r.Some? ==> r.value.closedTrades == doc.closedTrades && r.value.transactions == doc.transactions
  {
    if |doc.positions| == 0 then None
    else
      var ps := RefreshedUs(doc, clocks, responses);
      Some(doc.(positions := CleanupPositions(ps),
                priceCache := StoreResults(doc.priceCache, UsKeys(doc.positions), FetchAllUs(responses, clocks)),
                snapshots := Upsert(doc.snapshots, DaySnapshotUs(doc, today, ps))))
  }

  /** What a run saves: the positions refreshed and cleaned, the successful
      fetches in the price cache, and the day's snapshot, recording the saved
      positions and the daily P&L of the refreshed ones, written into the
      snapshot list. */
  lemma UpdatePortfolioSaves(doc: Document, today: Date, clocks: seq<Clock>, responses: seq<Response>)
    requires |clocks| == |responses| == |doc.positions| > 0
    requires forall i :: 0 <= i < |responses| ==> FetchableUs(responses[i])
    ensures var d := UpdatePortfolio(doc, today, clocks, responses).value;
            var results := FetchAllUs(responses, clocks);
            && PositionsSaved(doc.positions, results, d.positions)
            && Stored(doc.priceCache, UsKeys(doc.positions), results, d.priceCache)
            && SnapshotsSaved(doc.snapshots, today, d.snapshots, d.positions, doc.closedTrades, doc.transactions,
                              DailyPnLUs(RefreshedUs(doc, clocks, responses), doc.snapshots, today,
                                         RealizedPnL(doc.closedTrades)))
  {
    UpdatePortfolioSavesPositions(doc, today, clocks, responses);
    UpdatePortfolioSavesCache(doc, today, clocks, responses);
    UpdatePortfolioSavesSnapshots(doc, today, clocks, responses);
  }

  /** The positions part of `UpdatePortfolioSaves`. */
  lemma UpdatePortfolioSavesPositions(doc: Document, today: Date, clocks: seq<Clock>, responses: seq<Response>)
    requires |clocks| == |responses| == |doc.positions| > 0
    requires forall i :: 0 <= i < |responses| ==> FetchableUs(responses[i])
    ensures PositionsSaved(doc.positions, FetchAllUs(responses, clocks),
                           UpdatePortfolio(doc, today, clocks, responses).value.positions)
  {
    var ps := RefreshedUs(doc, clocks, responses);
    assert UpdatePortfolio(doc, today, clocks, responses).value.positions == CleanupPositions(ps);
    UsPositionsStep(doc.positions, FetchAllUs(responses, clocks));
  }

  /** The price-cache part of `UpdatePortfolioSaves`. */
  lemma UpdatePortfolioSavesCache(doc: Document, today: Date, clocks: seq<Clock>, responses: seq<Response>)
    requires |clocks| == |responses| == |doc.positions| > 0
    requires forall i :: 0 <= i < |responses| ==> FetchableUs(responses[i])
    ensures Stored(doc.priceCache, UsKeys(doc.positions), FetchAllUs(responses, clocks),
                   UpdatePortfolio(doc, today, clocks, responses).value.priceCache)
  {
    var results := FetchAllUs(responses, clocks);
    assert UpdatePortfolio(doc, today, clocks, responses).value.priceCache
        == StoreResults(doc.priceCache, UsKeys(doc.positions), results);
  }

  /** The snapshot part of `UpdatePortfolioSaves`. */
  lemma UpdatePortfolioSavesSnapshots(doc: Document, today: Date, clocks: seq<Clock>, responses: seq<Response>)
    requires |clocks| == |responses| == |doc.positions| > 0
    requires forall i :: 0 <= i < |responses| ==> FetchableUs(responses[i])
    ensures var d := UpdatePortfolio(doc, today, clocks, responses).value;
            SnapshotsSaved(doc.snapshots, today, d.snapshots, d.positions, doc.closedTrades, doc.transactions,
                           DailyPnLUs(RefreshedUs(doc, clocks, responses), doc.snapshots, today,
                                      RealizedPnL(doc.closedTrades)))
  {
    var d := UpdatePortfolio(doc, today, clocks, responses).value;
    var ps := RefreshedUs(doc, clocks, responses);
    assert d.positions == CleanupPositions(ps);
    assert d.snapshots == Upsert(doc.snapshots, DaySnapshotUs(doc, today, ps));
    UsSnapshotSaved(doc.snapshots, today, ps, doc.closedTrades, doc.transactions,
                    DailyPnLUs(ps, doc.snapshots, today, RealizedPnL(doc.closedTrades)));
  }

  /** Refreshing under the cleaned tickers and then cleaning saves the
      positions as `PositionsSaved` describes. */
  lemma UsPositionsStep(ps: seq<Position>, results: seq<FetchResult>)
    requires |results| == |ps|
    ensures PositionsSaved(ps, results, CleanupPositions(RefreshPositions(ps, UsKeys(ps), results)))
  {
  }

  /** The day's snapshot, written into the list, records the cleaned
      positions. */
  lemma UsSnapshotSaved(snaps: seq<Snapshot>, today: Date, ps: seq<Position>,
                        trades: seq<ClosedTrade>, txs: seq<Transaction>, daily: real)
    ensures SnapshotsSaved(snaps, today, Upsert(snaps, FullSnapshot(today, ps, TickerList(ps), trades, txs, daily)),
                           CleanupPositions(ps), trades, txs, daily)
  {
    var r := CleanupPositions(ps);
    var snap := FullSnapshot(today, ps, TickerList(ps), trades, txs, daily);
    CleanupKeepsSnapshot(today, ps, trades, txs, daily);
    assert snap == FullSnapshot(today, r, TickerList(r), trades, txs, daily);
    UpsertWrites(snaps, snap);
  }
}

=== FILE: upsert.dfy ===
/** Writing the day's snapshot into the list: the first snapshot with the same
    date is replaced wholesale in place; otherwise the new one is appended and
    the list is sorted by date (a stable sort). */
module SnapshotList {
  import opened Common
  import opened Records

  /** Index `k` holds the first snapshot dated `d`. */
  predicate FirstWithDate(s: seq<Snapshot>, d: Date, k: int) {
    0 <= k < |s| && s[k].date == d && forall j :: 0 <= j < k ==> s[j].date != d
  }

  /** Scan for the first snapshot dated `d`. */
  function FindDate(s: seq<Snapshot>, d: Date, from: nat): (r: Option<nat>)
    requires from <= |s|
    requires forall j :: 0 <= j < from ==> s[j].date != d
    ensures r.None? <==> forall j :: 0 <= j < |s| ==> s[j].date != d
    ensures r.Some? ==> FirstWithDate(s, d, r.value)
    decreases |s| - from
  {
    if from == |s| then None
    else if s[from].date == d then Some(from)
    else FindDate(s, d, from + 1)
  }

  predicate SortedByDate(s: seq<Snapshot>) {
    forall i, j :: 0 <= i < j < |s| ==> s[i].date <= s[j].date
  }

  /** Insert `x` into a sorted list after every snapshot dated no later than
      it, which keeps equal dates in arrival order. */
  function InsertByDate(s: seq<Snapshot>, x: Snapshot): (r: seq<Snapshot>)
    requires SortedByDate(s)
    ensures SortedByDate(r)
    ensures |r| == |s| + 1
    ensures r[|r| - 1].date == if |s| > 0 && s[|s| - 1].date > x.date then s[|s| - 1].date else x.date
    decreases |s|
  {
    if |s| == 0 then [x]
    else if s[|s| - 1].date <= x.date then s + [x]
    else
      var n := |s| - 1;
      var rest := InsertByDate(s[..n], x);
      assert n > 0 ==> s[n - 1].date <= s[n].date;
      SortedSnoc(rest, s[n]);
      rest + [s[n]]
  }

  /** Appending a snapshot dated no earlier than the last keeps a list sorted. */
  lemma SortedSnoc(s: seq<Snapshot>, y: Snapshot)
    requires SortedByDate(s)
    requires |s| > 0 ==> s[|s| - 1].date <= y.date
    ensures SortedByDate(s + [y])
  {
    forall i, j | 0 <= i < j < |s| + 1 ensures (s + [y])[i].date <= (s + [y])[j].date {
      if j == |s| {
        assert s[i].date <= s[|s| - 1].date;
      }
    }
  }

  /** Stable insertion sort by date: the result of `list.sort(key=date)`. */
  function SortByDate(s: seq<Snapshot>): (r: seq<Snapshot>)
    ensures SortedByDate(r)
    ensures |r| == |s|
    decreases |s|
  {
    if |s| == 0 then []
    else InsertByDate(SortByDate(s[..|s| - 1]), s[|s| - 1])
  }

  lemma {:induction false} InsertPermutes(s: seq<Snapshot>, x: Snapshot)
    requires SortedByDate(s)
    ensures multiset(InsertByDate(s, x)) == multiset(s) + multiset{x}
    decreases |s|
  {
    if |s| > 0 && s[|s| - 1].date > x.date {
      var n := |s| - 1;
      InsertPermutes(s[..n], x);
      assert s == s[..n] + [s[n]];
    }
  }

  /** Sorting only reorders: the result holds the same snapshots, each as
      often as before. */
  lemma {:induction false} SortPermutes(s: seq<Snapshot>)
    ensures multiset(SortByDate(s)) == multiset(s)
    decreases |s|
  {
    if |s| > 0 {
      var n := |s| - 1;
      SortPermutes(s[..n]);
      InsertPermutes(SortByDate(s[..n]), s[n]);
      assert s == s[..n] + [s[n]];
    }
  }

  /** Sorting a list that is already in date order leaves it as it is. */
  lemma {:induction false} SortKeepsSorted(s: seq<Snapshot>)
    requires SortedByDate(s)
    ensures SortByDate(s) == s
    decreases |s|
  {
    if |s| > 0 {
      var n := |s| - 1;
      SortKeepsSorted(s[..n]);
      assert s[..n] + [s[n]] == s;
    }
  }

  /** The snapshot list after writing `x`. */
  function Upsert(s: seq<Snapshot>, x: Snapshot): (r: seq<Snapshot>)
    ensures forall k :: FirstWithDate(s, x.date, k) ==> r == s[k := x]
    ensures (forall j :: 0 <= j < |s| ==> s[j].date != x.date) ==>
              SortedByDate(r) && multiset(r) == multiset(s) + multiset{x}
  {
    match FindDate(s, x.date, 0)
    case Some(k) => s[k := x]
    case None =>
      SortPermutes(s + [x]);
      SortByDate(s + [x])
  }

  /** Writing `x` adds `x`, keeps every snapshot of another date, and grows
      the list only when no snapshot had `x`'s date. */
  lemma UpsertContents(s: seq<Snapshot>, x: Snapshot)
    ensures x in Upsert(s, x)
    ensures forall j :: 0 <= j < |s| && s[j].date != x.date ==> s[j] in Upsert(s, x)
    ensures |Upsert(s, x)| == if CountDate(s, x.date) == 0 then |s| + 1 else |s|
  {
    CountDateNone(s, x.date);
    var r := Upsert(s, x);
    match FindDate(s, x.date, 0)
    case Some(k) =>
      assert r == s[k := x];
      assert r[k] == x;
      assert forall j :: 0 <= j < |s| && s[j].date != x.date ==> r[j] == s[j];
    case None =>
      assert multiset(r) == multiset(s) + multiset{x};
      assert x in multiset(r);
      forall j | 0 <= j < |s| && s[j].date != x.date ensures s[j] in r {
        assert s[j] in multiset(s);
        assert s[j] in multiset(r);
      }
      assert |r| == |multiset(r)|;
  }

  /** Number of snapshots dated `d`. */
  function CountDate(s: seq<Snapshot>, d: Date): nat
    decreases |s|
  {
    if |s| == 0 then 0
    else CountDate(s[..|s| - 1], d) + (if s[|s| - 1].date == d then 1 else 0)
  }

  lemma {:induction false} CountDateAppend(a: seq<Snapshot>, b: seq<Snapshot>, d: Date)
    ensures CountDate(a + b, d) == CountDate(a, d) + CountDate(b, d)
    decreases |b|
  {
    if |b| == 0 {
      assert a + b == a;
    } else {
      assert (a + b)[..|a + b| - 1] == a + b[..|b| - 1];
      assert (a + b)[|a + b| - 1] == b[|b| - 1];
      CountDateAppend(a, b[..|b| - 1], d);
    }
  }

  lemma {:induction false} CountDateNone(s: seq<Snapshot>, d: Date)
    ensures CountDate(s, d) == 0 <==> forall j :: 0 <= j < |s| ==> s[j].date != d
    decreases |s|
  {
    if |s| > 0 {
      CountDateNone(s[..|s| - 1], d);
    }
  }

  lemma {:induction false} CountDateUpdate(s: seq<Snapshot>, k: nat, x: Snapshot, d: Date)
    requires k < |s| && s[k].date == x.date
    ensures CountDate(s[k := x], d) == CountDate(s, d)
  {
    var t := s[k := x];
    assert s == s[..k] + [s[k]] + s[k + 1..];
    assert t == s[..k] + [x] + s[k + 1..];
    CountDateAppend(s[..k] + [s[k]], s[k + 1..], d);
    CountDateAppend(s[..k], [s[k]], d);
    CountDateAppend(s[..k] + [x], s[k + 1..], d);
    CountDateAppend(s[..k], [x], d);
    assert CountDate([x], d) == CountDate([s[k]], d) by {
      assert [x][..0] == [] && [s[k]][..0] == [];
    }
  }

  lemma {:induction false} CountDateInsert(s: seq<Snapshot>, x: Snapshot, d: Date)
    requires SortedByDate(s)
    ensures CountDate(InsertByDate(s, x), d) == CountDate(s, d) + (if x.date == d then 1 else 0)
    decreases |s|
  {
    if |s| > 0 && s[|s| - 1].date > x.date {
      var n := |s| - 1;
      CountDateInsert(s[..n], x, d);
      assert InsertByDate(s, x)[..|s|] == InsertByDate(s[..n], x);
    } else if |s| > 0 {
      assert (s + [x])[..|s|] == s;
    }
  }

  lemma {:induction false} CountDateSort(s: seq<Snapshot>, d: Date)
    ensures CountDate(SortByDate(s), d) == CountDate(s, d)
    decreases |s|
  {
    if |s| > 0 {
      var n := |s| - 1;
      CountDateSort(s[..n], d);
      CountDateInsert(SortByDate(s[..n]), s[n], d);
    }
  }

  /** Writing a snapshot never creates a second entry for its date: with at
      most one before, there is exactly one after. */
  lemma UpsertKeepsDateUnique(s: seq<Snapshot>, x: Snapshot)
    requires CountDate(s, x.date) <= 1
    ensures CountDate(Upsert(s, x), x.date) == 1
  {
    CountDateNone(s, x.date);
    match FindDate(s, x.date, 0)
    case Some(k) =>
      CountDateUpdate(s, k, x, x.date);
    case None =>
      CountDateSort(s + [x], x.date);
      CountDateAppend(s, [x], x.date);
      assert [x][..0] == [];
  }

  /** `r` is `s` after writing `x`: `x` is in it; it is `s` with `x` in
      place of the first snapshot of `x`'s date when there is one; when
      there is none, it is date-sorted and holds exactly the snapshots of `s`
      and `x`; every snapshot of another date is kept; it grows only when
      the date is new; and the date is not duplicated. */
  ghost predicate Written(s: seq<Snapshot>, x: Snapshot, r: seq<Snapshot>) {
    && x in r
    && (forall k :: FirstWithDate(s, x.date, k) ==> r == s[k := x])
    && (CountDate(s, x.date) == 0 ==> SortedByDate(r) && multiset(r) == multiset(s) + multiset{x})
    && (forall j :: 0 <= j < |s| && s[j].date != x.date ==> s[j] in r)
    && |r| == (if CountDate(s, x.date) == 0 then |s| + 1 else |s|)
    && (CountDate(s, x.date) <= 1 ==> CountDate(r, x.date) == 1)
  }

  lemma UpsertWrites(s: seq<Snapshot>, x: Snapshot)
    ensures Written(s, x, Upsert(s, x))
  {
    UpsertContents(s, x);
    CountDateNone(s, x.date);
    if CountDate(s, x.date) <= 1 {
      UpsertKeepsDateUnique(s, x);
    }
  }

  /** Two snapshots with the same date make that date's count at least 2. */
  lemma {:induction false} CountDateTwo(s: seq<Snapshot>, d: Date, i: nat, j: nat)
    requires i < j < |s| && s[i].date == d && s[j].date == d
    ensures CountDate(s, d) >= 2
  {
    assert s[..j] + s[j..] == s;
    CountDateAppend(s[..j], s[j..], d);
    assert s[..j][i].date == d;
    CountDateNone(s[..j], d);
    assert s[j..][0].date == d;
    CountDateNone(s[j..], d);
  }

  /** Writing the same snapshot twice is writing it once. */
  lemma UpsertIdempotent(s: seq<Snapshot>, x: Snapshot)
    ensures Upsert(Upsert(s, x), x) == Upsert(s, x)
  {
    var r := Upsert(s, x);
    match FindDate(s, x.date, 0)
    case Some(k0) =>
      assert r == s[k0 := x];
      UpsertAgainAt(r, x, k0);
    case None =>
      UpsertContents(s, x);
      var kx :| 0 <= kx < |r| && r[kx] == x;
      var k := FindDate(r, x.date, 0).value;
      CountDateNone(s, x.date);
      UpsertKeepsDateUnique(s, x);
      if k < kx {
        CountDateTwo(r, x.date, k, kx);
      }
      UpsertAgainAt(r, x, kx);
  }

  /** A list whose first snapshot for `x`'s date is `x` itself is left as it
      is by writing `x`. */
  lemma UpsertAgainAt(r: seq<Snapshot>, x: Snapshot, k: nat)
    requires FirstWithDate(r, x.date, k) && r[k] == x
    ensures Upsert(r, x) == r
  {
    assert r[k := x] == r;
  }

  /** `r` is `s` with `x` inserted at `k`, after every earlier date and
      before every later one. */
  predicate InsertedAt(s: seq<Snapshot>, x: Snapshot, k: int, r: seq<Snapshot>) {
    && 0 <= k <= |s|
    && r == s[..k] + [x] + s[k..]
    && (forall j :: 0 <= j < k ==> s[j].date < x.date)
    && (forall j :: k <= j < |s| ==> s[j].date > x.date)
  }

  /** On a list already in date order, a new date goes between the earlier
      and the later snapshots and nothing else moves. */
  lemma UpsertIntoSorted(s: seq<Snapshot>, x: Snapshot)
    requires SortedByDate(s)
    requires forall j :: 0 <= j < |s| ==> s[j].date != x.date
    ensures exists k :: InsertedAt(s, x, k, Upsert(s, x))
  {
    assert Upsert(s, x) == SortByDate(s + [x]) by {
      assert FindDate(s, x.date, 0).None?;
    }
    assert SortByDate(s + [x]) == InsertByDate(s, x) by {
      assert (s + [x])[..|s|] == s;
      SortKeepsSorted(s);
    }
    var k := InsertSplits(s, x);
  }

  lemma {:induction false} InsertSplits(s: seq<Snapshot>, x: Snapshot) returns (k: nat)
    requires SortedByDate(s)
    requires forall j :: 0 <= j < |s| ==> s[j].date != x.date
    ensures InsertedAt(s, x, k, InsertByDate(s, x))
    decreases |s|
  {
    if |s| == 0 {
      k := 0;
      assert InsertByDate(s, x) == [x];
    } else if s[|s| - 1].date <= x.date {
      k := |s|;
      assert InsertByDate(s, x) == s + [x];
      assert s[..k] == s && s[k..] == [];
    } else {
      var n := |s| - 1;
      var t := s[..n];
      k := InsertSplits(t, x);
      var r := InsertByDate(t, x);
      assert InsertByDate(s, x) == r + [s[n]];
      assert r == t[..k] + [x] + t[k..];
      assert t[..k] == s[..k];
      assert t[k..] + [s[n]] == s[k..];
      assert r + [s[n]] == s[..k] + [x] + s[k..];
      assert forall j :: 0 <= j < k ==> s[j] == t[j];
      assert forall j :: k <= j < n ==> s[j] == t[j];
    }
  }

  /** `r` holds the same snapshots as `s` at the same indices wherever either
      is dated before `d`. */
  ghost predicate SameBefore(s: seq<Snapshot>, r: seq<Snapshot>, d: Date) {
    && (forall i :: 0 <= i < |s| && s[i].date < d ==> i < |r| && r[i] == s[i])
    && (forall i :: 0 <= i < |r| && r[i].date < d ==> i < |s| && s[i] == r[i])
  }

  lemma ReplaceKeepsEarlier(s: seq<Snapshot>, k: nat, x: Snapshot)
    requires k < |s| && s[k].date == x.date
    ensures SameBefore(s, s[k := x], x.date)
  {
  }

  lemma InsertKeepsEarlier(s: seq<Snapshot>, x: Snapshot, k: nat, r: seq<Snapshot>)
    requires InsertedAt(s, x, k, r)
    ensures SameBefore(s, r, x.date)
  {
    assert forall i :: 0 <= i < k ==> r[i] == s[i];
    assert r[k] == x;
    assert forall i :: k < i < |r| ==> r[i] == s[i - 1];
  }

  /** Writing `x` into a list that already holds its date, or that is in date
      order, leaves every snapshot dated before `x` at its index. */
  lemma UpsertKeepsEarlier(s: seq<Snapshot>, x: Snapshot)
    requires SortedByDate(s) || exists j :: 0 <= j < |s| && s[j].date == x.date
    ensures SameBefore(s, Upsert(s, x), x.date)
  {
    match FindDate(s, x.date, 0)
    case Some(k) =>
      ReplaceKeepsEarlier(s, k, x);
    case None =>
      UpsertIntoSorted(s, x);
      var k :| InsertedAt(s, x, k, Upsert(s, x));
      InsertKeepsEarlier(s, x, k, Upsert(s, x));
  }
}
